=== FILE: README.md ===
# Face-recognition attendance: a Dafny model of its decision rules

This project models the decision logic of a face-recognition attendance
system. The system has three parts:

- a Flask server (`app.py`) that registers students and records attendance
  after a liveness check and a face match;
- an administrator dashboard;
- a student dashboard, a registration form and a token guard, all written
  in React.

The model keeps the system's rules and state machines and replaces everything
around them with parameters. Database tables become sequences of rows, and
each route becomes a pure function from the tables before a request to the
reply and the tables after it. Face matching, blink detection, encoding
generation, password hashing and token decoding are passed in as oracle
functions. Each React page becomes a record of its state flags with one
function per handler.

Modules, one per file:

- `Wrappers`: `Option`.
- `Text`: the string operations the source relies on. These are Python `strip`
  and `lower`, JavaScript `\s`, substring search, `split`/`join`, decimal
  rendering and UTF-16 length.
- `Schema`: the `Student` and `Attendance` rows, the lookups the routes use, and
  the uniqueness of the student keys.
- `ServerHelpers`: `allowed_file` and `validate_email`.
- `Marking`: `check_duplicate_attendance`, `mark_attendance` and
  `mark_attendance_enhanced`, including the blink-counting loop.
- `Records`: `register_student`, `create_student` and `update_student`.
- `Reports`: `get_attendance_reports`.
- `StudentDashboard`, `AdminDashboard`, `StudentRegister` and `ProtectedRoute`:
  the React pages.

Where the design description and the code disagree, the model follows the
code:

- `update_student` with an unknown id answers 500, not 404. `get_or_404`
  raises inside the route's `try`, and the handler turns every exception
  into 500.
- The duplicate checks compare the e-mail and roll number as sent. The row
  stores them normalised, and both columns are unique. So a roll number that
  differs from a stored one only in surrounding blanks, or an address that
  differs only by the trailing newline `validate_email` accepts, passes the
  409 check and fails at the commit with 500. An address that differs only
  in case does so only under a case-sensitive (binary) collation; MySQL's
  default collation is case-insensitive, and then the check answers 409.
- In `update_student`, the roll-number query flushes the pending e-mail
  change first. A normalised e-mail collision therefore fails there, with
  500, before the roll-number check runs.
- A failed face verification is answered with status 200 and
  `success: false`.
- Python's `$` also matches before one trailing newline, so
  `validate_email` accepts `"a@b.co\n"`.
- The student dashboard does not discard the result of a request that is
  still in flight when the camera dialog is closed. The result is applied
  when it arrives.
- The admin page's JSON fallback for creating a student never succeeds. The
  create route reads the photo and the fields from the multipart body only.
- The marking routes read two clocks. The duplicate check looks for a row
  dated by the application's clock (`datetime.now().date()`). The new row
  is built without a date, so it takes the database's `current_date()`
  default. When the two dates differ, for example on either side of
  midnight in different time zones, the same student can be marked twice
  for one day. The model keeps both dates as separate parameters.

## Model

| member | source | states |
|---|---|---|
| ServerHelpers.AllowedFileMeaning | app.py:115-116 | a file name is accepted exactly when it has a '.' and the text after its last '.', lower-cased, is png, jpg, jpeg or gif |
| ServerHelpers.OnlyFinalExtensionCounts | app.py:115-116 | an allowed extension anywhere but at the end of the name does not make the name acceptable |
| ServerHelpers.NoDotRefused | app.py:115-116 | a name without '.' is refused |
| ServerHelpers.EmailShapeIsPattern | app.py:112-113 | the decision by first '@' and last '.' agrees with the regular expression: one '@' with word, '.', '+' or '-' characters before it, then a domain, a '.', and a non-empty word-character suffix |
| ServerHelpers.ValidateEmailMeaning | app.py:112-113 | `validate_email` holds exactly when the address matches the pattern, or matches it once a single trailing newline is dropped |
| ServerHelpers.SingleAt | app.py:112-113 | an accepted address holds exactly one '@' |
| ServerHelpers.TrailingNewlineAccepted | app.py:112-113 | an address the pattern matches is still accepted with a newline appended |
| Schema.FindByEmail | app.py:766 | `filter_by(email=...).first()` finds the first row with that exact e-mail, and nothing only when no row has it |
| Marking.CheckDuplicateAttendance | app.py:140-145 | there is no result exactly when no row records this student on this day; a result is such a row |
| Marking.StudentGate | app.py:766-775 | the shared guards run in order (unknown student 404, no stored encoding 400, already marked today 400), and a student is admitted exactly when all three pass |
| Marking.ReportedConfidence | app.py:824 | a failed verification reports the matcher's confidence, or none when that confidence is missing or zero |
| Marking.Decide | app.py:797-830 | a row is added exactly when the face matches with confidence at least 60 (threshold 0.6 times 100); otherwise the table is unchanged, and a mismatch or a confidence below 60 is answered with status 200 and "Face verification failed" |
| Marking.MarkAttendance | app.py:763-830 | the guards decide in order (gate, no image, disallowed file name, no blink); once they all pass, the request succeeds exactly when the match is accepted; a success appends exactly one row, for the admitted student, dated and timed by the database's clock and carrying the matcher's confidence; every refusal leaves the table unchanged |
| Marking.AppendKeepsOnePerDay | app.py:140-145 | appending a row to a table with one row per student and day keeps it so exactly when the duplicate check finds no row for that student on the new row's date |
| Marking.MarkKeepsOnePerDay | app.py:774-809 | a marking request creates a second row for a student and day exactly when that student already has a row on the date the database stamps, and never when the application's and the database's dates agree |
| Marking.RunMarksKeepsOnePerDay | app.py:774-809 | any sequence of marking requests, one after another, on which the application's and the database's dates agree keeps at most one row per student and day |
| Marking.SecondMarkSameDayRefused | app.py:774-775 | after a successful mark, a request by the same student whose duplicate check reads the date the new row was stamped with is refused with "Attendance already marked today" and changes nothing |
| Marking.SkewedClocksMarkTwice | app.py:140-145 | when the database's date differs from the application's, the same successful request served twice is accepted twice and leaves two rows for the student on one day |
| Marking.ConsideredAppend | app.py:874-879 | frames without a detected face are dropped from a concatenation piece by piece |
| Marking.ScanCountsRuns | app.py:870-895 | the blink loop, started from any previous eye state and count, adds the number of maximal closed-eye runs among the frames with a face, not counting a run continued from a closed previous frame |
| Marking.BlinkCountIsClosedRuns | app.py:870-895 | the blink count equals the number of maximal runs of closed-eye frames among the frames with a detected face |
| Marking.ClosedRunsBound | app.py:870-895 | closed runs are separated by open frames, so twice their number is at most the number of frames plus one |
| Marking.FacelessFrameIgnored | app.py:878-879 | inserting a frame without a face anywhere leaves the blink count unchanged |
| Marking.BlinkCountBounds | app.py:870-897 | the count never exceeds the frames with a face, and reaching the two required blinks takes at least three such frames |
| Marking.ValidFrames | app.py:860-867 | at most one frame is kept per upload |
| Marking.ValidFramesEmpty | app.py:860-867 | no frame is kept exactly when every upload's name is refused |
| Marking.LastValidFrame | app.py:904-909 | the frame used for matching is the content of the last upload whose name is allowed |
| Marking.MarkAttendanceEnhanced | app.py:836-939 | the guards decide in order: gate, no images, fewer than 3 images, no allowed frame, fewer than 2 blinks (with the count in the message); once they all pass, the request succeeds exactly when the match on the last allowed frame is accepted; a success appends exactly one row, dated by the database's clock, and reports the blink count |
| Marking.EnhancedChecks | app.py:852-917 | after admission: no images, fewer than 3 images, no allowed frame and fewer than 2 blinks refuse with 400 in that order, and then the request succeeds exactly when the match on the last allowed frame is accepted |
| Marking.EnhancedAcceptNeedsThreeFaces | app.py:856-897 | an accepted enhanced request had a face detected in at least three frames |
| Marking.EnhancedKeepsOnePerDay | app.py:848-917 | the enhanced route creates a second row for a student and day exactly when that student already has a row on the date the database stamps, and never when the two clocks agree on the date |
| Records.CommitInsert | app.py:354-355 | the insert succeeds exactly when the new row's e-mail and roll number are both unused; otherwise the unique columns roll it back with 500 |
| Records.NewStudent | app.py:346-352 | the built row's id is used by no existing row |
| Records.CheckForm | app.py:332-344 | the shared validation passes exactly when every field is present, the e-mail is valid, and the raw e-mail and roll number are unused; a failure is never a success reply |
| Records.RegisterStudent | app.py:328-371 | the checks decide in order (missing field 400, bad e-mail 400, e-mail taken 409, roll taken 409); once they pass, the request succeeds exactly when the normalised e-mail and roll number are free, else 500; a success appends one row with stripped name and roll, normalised e-mail, hashed password, and no photo or encoding |
| Records.CreateStudent | app.py:428-499 | photo checks come first (missing, unnamed, wrong type, each 400), then the form checks, then the face check (400); once all pass, the request succeeds exactly when the normalised e-mail and roll number are free, else 500; a success appends one row holding the stored photo name and its encoding |
| Records.ReplacePhoto | app.py:532-550 | an allowed photo replaces the photo name and the encoding, and nothing else; a photo without a face refuses the update; no photo or a disallowed one leaves the row as it was |
| Records.ApplyFields | app.py:554-569 | each field changes only when the form carries it; e-mail and roll number only when they differ, stored normalised; the password only when supplied non-empty |
| Records.UpdateStudent | app.py:528-588 | an unknown id gives 500; a photo without a face gives 400; a changed e-mail used by another student gives 409; with the e-mail accepted, a changed roll number gives 500 when the normalised e-mail collides and 409 when another student has that roll number; when none of this applies and the stored keys stay free, the update succeeds and rewrites only the student's own row; every failure leaves the table unchanged |
| Records.UpdateFields | app.py:552-573 | the e-mail check (409), the flush of the normalised e-mail (500), the roll check (409) and the commit (500 on a collision) decide in that order; when all pass, only the student's row changes, to its fields as the form sets them |
| Records.AppendKeepsKeysUnique | app.py:60-62 | appending a row whose id, e-mail and roll number are all unused keeps every key unique |
| Records.RegisterKeepsKeysUnique | app.py:340-355 | registration keeps ids, e-mails and roll numbers unique |
| Records.CreateKeepsKeysUnique | app.py:452-480 | creation keeps ids, e-mails and roll numbers unique |
| Records.UpdateKeepsKeysUnique | app.py:554-571 | an update keeps ids, e-mails and roll numbers unique |
| Records.RawEmailCheckMisses | app.py:340-355 | an address matching a stored one only after lower-casing and stripping (a trailing newline; a case variant under a case-sensitive collation) passes the 409 check, and registration fails with 500 |
| Records.RawRollCheckMisses | app.py:455-480 | a roll number matching a stored one only after stripping passes the 409 check, and creation fails with 500 |
| Records.UnchangedEditSucceeds | app.py:554-571 | resubmitting a student's own fields with a blank password succeeds and changes nothing: the student's own keys do not count as taken |
| Records.QuietUpdateSucceeds | app.py:552-573 | an update without photo that keeps the e-mail and roll number succeeds and rewrites only the student's own row; the student's own keys never count as taken |
| Records.NoOpUpdateSucceeds | app.py:552-573 | an update without photo whose fields leave the row as it is succeeds and leaves the table unchanged |
| Records.UpdateStoresFields | app.py:564-569 | an accepted update without photo stores the submitted name (stripped) and course, and the password only when supplied non-empty, and leaves every other row as it was |
| Records.EmptyUpdateChangesNothing | app.py:552-571 | an update without photo and without form fields answers success and changes no row |
| Records.CreatedStudentCanMark | app.py:469-480 | a student just created passes every marking guard, given that existing attendance rows refer to existing students |
| Reports.Arg | app.py:703-706 | a missing query parameter reads as empty; a present one is stripped |
| Reports.JoinRow | app.py:708-711 | an attendance row's join partners are exactly the students with its student id |
| Reports.InnerJoin | app.py:708-711 | a pair is in the join exactly when both rows exist and the ids agree |
| Reports.Filter | app.py:714-722 | a pair survives exactly when it passes every filter that is set (name and roll as case-insensitive substrings, date and course exactly) |
| Reports.Insert | app.py:725-727 | insertion into a newest-first list keeps it newest-first and adds exactly the new element |
| Reports.SortNewest | app.py:725-727 | the result is a permutation of its input, ordered by date and then time, newest first |
| Reports.ReportRows | app.py:707-727 | the report is newest-first and holds exactly the filtered join, each pair as often as it occurs |
| Reports.AttendanceReports | app.py:700-755 | the reply lists the report rows in order, echoes the stripped filters, and its count is the list's length |
| Reports.ReportMembership | app.py:708-722 | a pair is reported exactly when the attendance row belongs to that student and passes every filter that is set |
| Reports.NoFiltersKeepAll | app.py:714-722 | without query parameters the report holds the whole join |
| Reports.EveryRowReportedOnce | app.py:708-711 | with unique student ids and every row referring to a student, the unfiltered report counts each attendance row once |
| Reports.JoinKeepsEveryRow | app.py:708-711 | with unique student ids and every row referring to a student, the join has exactly one pair per attendance row |
| Reports.PaddedArgumentSame | app.py:703-706 | whitespace of any kind and amount before and after a query parameter does not change the filters |
| StudentDashboard.ClearMessages | StudentDashboard.jsx:98-101 | the message and the suggestions are emptied and nothing else changes |
| StudentDashboard.ClickMarkEntry | StudentDashboard.jsx:303-333 | the entry opens the dialog only while no attendance is known for today |
| StudentDashboard.CameraReady | StudentDashboard.jsx:93-96 | the camera becomes ready with the ready message and nothing else changes |
| StudentDashboard.BeginCapture | StudentDashboard.jsx:103-110 | an attempt is refused exactly when the camera is not ready or the webcam is missing; otherwise the messages are cleared and marking begins |
| StudentDashboard.Refused | StudentDashboard.jsx:104-107 | a refusal sets the not-ready error and leaves `isMarking` and the suggestions alone |
| StudentDashboard.ErrorText | StudentDashboard.jsx:165-184 | the error text is, by priority, the time-out text, the server's message, the exception's message, or the default, and never empty |
| StudentDashboard.FinishCapture | StudentDashboard.jsx:145-187 | a success records today's attendance and closes the dialog; a refusal or exception shows an error, keeps the camera flags and replaces suggestions only when the server sent some; marking always ends |
| StudentDashboard.Capture | StudentDashboard.jsx:103-188 | a whole attempt is either the refusal or the cleared, marking state finished with the exchange's outcome; a started attempt always ends with marking off, and an attempt begun while idle leaves it idle |
| StudentDashboard.CloseCamera | StudentDashboard.jsx:195-199 | closing hides the dialog, un-readies the camera and clears the messages, without touching a running attempt or today's record |
| StudentDashboard.ConfidenceColor | StudentDashboard.jsx:201-205 | green from 80, yellow from 60, red below 60 or when no confidence is known |
| StudentDashboard.ConfidenceColorMonotone | StudentDashboard.jsx:201-205 | a higher confidence never gets a worse band |
| StudentDashboard.NotReadyRefuses | StudentDashboard.jsx:104-107 | an attempt without a ready camera or webcam changes only the message |
| StudentDashboard.EnabledButtonStarts | StudentDashboard.jsx:389 | a click on the enabled button starts an attempt, and the button is disabled while it runs |
| StudentDashboard.AttemptEnds | StudentDashboard.jsx:185-187 | an attempt started while idle ends idle, whatever its outcome |
| StudentDashboard.SuccessHidesEntry | StudentDashboard.jsx:145-154 | after a success carrying the record, the entry is hidden, the dialog closed and the message a success |
| StudentDashboard.CloseCameraIdempotent | StudentDashboard.jsx:195-199 | closing twice equals closing once |
| StudentDashboard.ResultAfterCloseApplied | StudentDashboard.jsx:145-154 | a success arriving after the dialog was closed is still recorded and shown |
| StudentDashboard.ScreenshotFailureShown | StudentDashboard.jsx:114-118 | an empty screenshot ends the attempt with its own error and leaves the dialog open |
| AdminDashboard.FilteredReports | AdminDashboard.jsx:42-48 | a report is kept exactly when its name or roll contains the search term case-insensitively and the date and course filters, when set, are equal; the result keeps the original order |
| AdminDashboard.ClearFilters | AdminDashboard.jsx:361-365 | all three filters become empty |
| AdminDashboard.ClearedFiltersShowAll | AdminDashboard.jsx:42-48 | with the filters cleared, the list is shown in full |
| AdminDashboard.DateFilterAgrees | AdminDashboard.jsx:45 | the client's date filter on a rendered row agrees with the server's date filter on the joined row |
| AdminDashboard.HandleApiError | AdminDashboard.jsx:88-101 | the toast is the reply's message, else its error, else the exception's message, else "Operation failed"; a 401 removes the token and leads to the login page; nothing else does |
| AdminDashboard.TokenRemovedIff401 | AdminDashboard.jsx:97-100 | the token survives an error exactly when its status is not 401 |
| AdminDashboard.ErrorToastNonEmpty | AdminDashboard.jsx:88-96 | the error toast is never empty |
| AdminDashboard.StartCamera | AdminDashboard.jsx:118-121 | starting sets capturing and un-readies the camera, nothing else |
| AdminDashboard.CameraAcquired | AdminDashboard.jsx:122-141 | a granted stream turns the camera on; it becomes the mounted video's source if there is one and otherwise reaches no element, and a stream it replaces keeps running; a refusal turns capturing off, which unmounts the video, so a stream it held keeps running; readiness is untouched |
| AdminDashboard.MetadataLoaded | AdminDashboard.jsx:133-135 | the camera becomes ready only for an attached stream |
| AdminDashboard.StopCamera | AdminDashboard.jsx:144-151 | stopping turns capturing and readiness off and stops only a stream the mounted video holds: the camera stays on exactly when a stream no element holds is running; nothing else changes |
| AdminDashboard.Unmount | AdminDashboard.jsx:398-416 | when the video leaves the page its stream keeps running, held by no element: the camera is on afterwards exactly when it was on before |
| AdminDashboard.ResetForm | AdminDashboard.jsx:297-310 | the form returns to its defaults (course "CS"), edit mode and the current id and encoding are cleared, capturing is off, and the camera stays on exactly when a stream no element holds is running |
| AdminDashboard.HandleEditStudent | AdminDashboard.jsx:312-322 | editing copies the student's fields with a blank password, enters edit mode on that id, and keeps the encoding; the video unmounts and the camera stays as it was |
| AdminDashboard.LeaveTab | AdminDashboard.jsx:81-86 | the cleanup on a tab change turns capturing and readiness off, but the camera stays on exactly when it was on, since the video's ref is already detached |
| AdminDashboard.ReadyOnlyByMetadata | AdminDashboard.jsx:118-151 | of all camera events, only the metadata of an attached stream makes the camera ready |
| AdminDashboard.StartDisablesCapture | AdminDashboard.jsx:449 | right after starting the camera, Capture Face is disabled |
| AdminDashboard.StopCameraIdempotent | AdminDashboard.jsx:144-151 | stopping twice equals stopping once, and stopping when the video holds no stream and the camera is idle changes nothing |
| AdminDashboard.StartGrantLoad | AdminDashboard.jsx:118-136 | start, a granted stream and its metadata make the camera ready |
| AdminDashboard.StepKeepsAttachedMounted | AdminDashboard.jsx:416-440 | every camera event keeps the rule that only a mounted video holds a stream |
| AdminDashboard.StrayNeverStops | AdminDashboard.jsx:118-151 | no camera event reduces the number of streams no element holds |
| AdminDashboard.StrayStaysOn | AdminDashboard.jsx:118-151 | once a stream runs with no element holding it, the camera stays on after any sequence of events |
| AdminDashboard.CameraLeftOn | AdminDashboard.jsx:144-151 | starting the camera, then editing a student and cancelling, or changing tabs, leaves the camera on with capturing off |
| AdminDashboard.CorrectedStopCamera | AdminDashboard.jsx:144-151 | with every opened stream kept in a ref of its own, stopping turns the camera off whatever is mounted |
| AdminDashboard.CorrectedResetForm | AdminDashboard.jsx:297-310 | with the corrected stop, resetting the form also turns the camera off |
| AdminDashboard.CorrectedExitsStopCamera | AdminDashboard.jsx:144-151 | with the corrected stop, stopping, resetting and leaving the tab each turn the camera off |
| AdminDashboard.CaptureFace | AdminDashboard.jsx:153-200 | without the video nothing happens; otherwise a returned encoding is stored, a failure is reported, and the busy flag is released |
| AdminDashboard.RequestFor | AdminDashboard.jsx:213-288 | edit mode sends a PUT; create mode without an encoding sends nothing; with an encoding it sends multipart while the video is mounted and JSON otherwise |
| AdminDashboard.HandleStudentSubmit | AdminDashboard.jsx:202-295 | without a token the page goes to the login; with one, the request sent is exactly the one of the current mode; create mode without an encoding shows an error and sends nothing; a success refetches the list, whose spinner unmounts the video, then resets the form, leaving the camera on exactly when it was on; an error goes through `handleApiError`; the submit flag always ends false |
| AdminDashboard.CreateLeavesCameraOn | AdminDashboard.jsx:258-272 | a successful multipart create with the camera showing leaves it on despite the two calls to `stopCamera`; with the corrected stop the same reset turns it off |
| AdminDashboard.ServerForm | AdminDashboard.jsx:213-288 | the server's form holds the page's fields exactly for the multipart request and nothing for the JSON requests |
| AdminDashboard.CorrectedServerForm | AdminDashboard.jsx:213-221 | with the edit sent as form data, the server's form holds the page's fields for the PUT and the multipart request |
| AdminDashboard.CaptureNameAllowed | AdminDashboard.jsx:254 | the captured photo's file name passes the server's upload check |
| AdminDashboard.JsonFallbackRefused | AdminDashboard.jsx:273-288 | the JSON fallback is always refused by the create route with "No photo uploaded" |
| AdminDashboard.EditIgnoredByServer | AdminDashboard.jsx:213-221 | as written, saving an edit changes no row, whatever the form holds, and is still answered "Student updated successfully" |
| AdminDashboard.CorrectedEditApplies | AdminDashboard.jsx:213-221 | with the edit sent as form data, an accepted save stores the edited name, course and new password and leaves other rows alone |
| AdminDashboard.UntouchedEditSaves | AdminDashboard.jsx:312-322 | opening a student and saving without changes sends a PUT that the server accepts without changing anything |
| AdminDashboard.FormatTime | AdminDashboard.jsx:354-358 | a missing or empty time gives ""; a time without ':' gives itself followed by ":undefined" |
| AdminDashboard.FormatTimeFirstTwoParts | AdminDashboard.jsx:354-358 | on any text whose first two ':'-separated parts are `h` and `m`, the result is `h:m` |
| AdminDashboard.FormatTimeOfServerTime | AdminDashboard.jsx:354-358 | on the server's `HH:MM:SS` text, the result is the zero-padded hours and minutes joined by ':' |
| StudentRegister.HandleChange | StudentRegister.jsx:20-26 | only the named field changes, to the typed value |
| StudentRegister.ClientEmailOkIsPattern | StudentRegister.jsx:36-39 | the decision by the first '@' agrees with `^[^\s@]+@[^\s@]+\.[^\s@]+$` |
| StudentRegister.ValidateForm | StudentRegister.jsx:28-52 | the checks decide in order (an empty field, a bad e-mail, a mismatch, fewer than 8 UTF-16 units), and the form passes exactly when all of them hold |
| StudentRegister.MismatchBeforeLength | StudentRegister.jsx:41-49 | a short password that also differs from its confirmation is reported as a mismatch |
| StudentRegister.HandleSubmit | StudentRegister.jsx:54-84 | an invalid form shows the first error and sends nothing; a valid one sends the form without the confirmation; 201 resets every field and goes to the login; an exception shows the server's message or the default |
| StudentRegister.PayloadHasRequiredFields | StudentRegister.jsx:62 | a form that passes validation sends every field the server requires and never the confirmation |
| StudentRegister.ServerPatternImpliesClient | StudentRegister.jsx:36-39 | every address the server's pattern matches also passes the client's pattern |
| StudentRegister.ClientLaxerThanServer | StudentRegister.jsx:36-39 | "a@b.c-" passes the client's check and fails the server's |
| ProtectedRoute.VerifyToken | ProtectedRoute.jsx:9-31 | no token means unauthenticated with the store untouched; an undecodable or expired token is removed; otherwise the student is let in exactly when `exp * 1000` is later than now |
| ProtectedRoute.Render | ProtectedRoute.jsx:33-37 | a loader exactly before the check, the children exactly when authenticated, the student login exactly when not |
| ProtectedRoute.TokenSurvivesIffAuthenticated | ProtectedRoute.jsx:17-27 | a present token survives the check exactly when the student is let in |
| ProtectedRoute.ExpiryBoundaryRejected | ProtectedRoute.jsx:17-22 | a token expiring at exactly this millisecond is rejected and removed |
| ProtectedRoute.AcceptanceMonotone | ProtectedRoute.jsx:17-22 | a token accepted at some instant is accepted at every earlier one |
| ProtectedRoute.GuardedView | ProtectedRoute.jsx:8-37 | the page finally shown is the children exactly when the check passes, and then a token is present before and after |

## Findings

| source | as written | input that shows it | evidently intended | confidence | as-written member | corrected member |
|---|---|---|---|---|---|---|
| AdminDashboard.jsx:144-151 | `stopCamera` reaches the stream only through `videoRef.current`, which React clears when the `<video>` unmounts (edit mode, the refetch spinner, a tab change), so a stream shown there is never stopped | start the camera, click Edit on a student, then Cancel: the webcam light stays on and no button turns it off | every exit path stops the tracks, e.g. by keeping the stream in a ref of its own | high; not executed | AdminDashboard.CameraLeftOn | AdminDashboard.CorrectedStopCamera |
| AdminDashboard.jsx:213-221 | the edit is sent as a JSON body, but `update_student` reads only `request.form` (app.py:552), which is empty for JSON | edit any student, change the name, save: the reply is 200 "Student updated successfully" and the row keeps the old name | the edited fields are stored, as they would be if the edit were sent as form data like the create request | high; not executed | AdminDashboard.EditIgnoredByServer | AdminDashboard.CorrectedEditApplies |

## Left out

- Face detection, encoding, comparison and the eye-aspect-ratio arithmetic (app.py:147-246) are oracle parameters. `detectBlinks` gives the single-image liveness verdict. `eyesClosed` gives each frame's "face found, eyes closed?". `compareFaces` gives the match and its confidence. `encode` gives the stored encoding.
- An image the face library cannot decode raises an exception, which becomes a 500 reply. The oracles are total, so the model does not produce that 500.
- `round(confidence, 2)` on the stored and reported confidence is not modelled. Confidences are real numbers passed through unchanged.
- Marking.Decide: a match with no confidence gives 500 in the model. `compare_faces` never returns a match without a confidence, so this branch only covers what the oracle's type allows.
- JWT issuance, `role_required` and `get_jwt_identity` are left out. The marking routes take the token's identity as a parameter.
- Password hashing is the `hash` parameter.
- File saving and removal and `generate_unique_filename` are left out. The stored file name is the `storedName` parameter.
- Database sessions, ids, `created_at`/`updated_at` and the report's `id` field are left out. A new student's id is any unused number.
- MySQL collation is not modelled: the model compares e-mails, roll numbers, courses and dates exactly.
- SQL `LIKE` wildcards (`%` and `_`) and MySQL's `LIKE` escape character `\` typed into the name or roll filter (app.py:716-718) are taken literally.
- The table has no unique (student, day) constraint, so concurrent marking can insert two rows. Races are not modelled; one-row-per-day is proved for requests one after another.
- Marking.MarkAttendance: the application's date and the database's date are independent parameters. One row per student and day is promised only when they agree (Marking.RunMarksKeepsOnePerDay); Marking.SkewedClocksMarkTwice shows the duplicate when they do not. How far the two clocks can drift apart is not modelled.
- Records.RegisterStudent, Records.CreateStudent, Records.UpdateStudent: the column lengths (`String(100)` for name and e-mail, `String(20)` for the roll number, `String(50)` for the course, app.py:60-63) are not modelled. Over-long values are accepted by the model; MySQL refuses them in strict mode, which the route answers with 500, or truncates them.
- Case folding and `\w` are ASCII only. Python's and JavaScript's Unicode case tables are not modelled.
- JSON values that are not strings (numbers, `null`) are not modelled. Form values are strings.
- Records.RegisterStudent: the body is `None` for a missing or `null` JSON body, which the route's `in` test turns into 500. A JSON array or string as the body is not modelled. The route then tests list membership or substring occurrence of the field names, which answers 400 "Missing required fields" unless all five names occur, and otherwise fails with 500 at `data['email']`.
- Marking.MarkAttendance, Marking.MarkAttendanceEnhanced, Records.CreateStudent, Records.UpdateStudent: the 2 MB upload limit (`MAX_CONTENT_LENGTH`, app.py:35) is not modelled. A larger body makes the first read of `request.files` (app.py:433, 532, 777, 851) raise 413 inside the route's `try`, and the route answers 500 ("Failed to mark attendance" for marking, after the student checks, app.py:827-830 and 936-939). Uploads are unbounded in the model.
- Reports.SortNewest: the database may return rows with the same date and time in any order. The model fixes one of those orders, the join order, and its contract promises nothing about ties.
- The browser side is left out: `getUserMedia` beyond granted or refused, canvas `toBlob`, react-webcam, axios time-outs, toasts beyond their text, navigation delays, the data the list refetches (`fetchData`, `fetchAttendanceHistory`) load (only the spinner's unmounting of the video is modelled), `generatePassword`, `handleDeleteStudent` and logout.
- The student dashboard calls `/api/attendance/today` and `/api/attendance/history`, which the server does not define. Each side is modelled against its own reply shape.
- ProtectedRoute.VerifyToken: `exp` is an integer number of seconds. A fractional or non-numeric `exp` is not modelled.
- StudentDashboard.Capture: the stale-closure behaviour of `useCallback` is not modelled. The attempt reads the state current at the click.

=== FILE: admin_dashboard.dfy ===
/** The logic of AdminDashboard.jsx: the client-side report filter, error
    reporting, the enrolment camera, the student form and its submission.
    React state is a record and each handler a function on it; the browser's
    `localStorage` is a key map, and the camera, the canvas and the HTTP
    exchanges are inputs. */
module AdminDashboard {
  import opened Wrappers
  import opened Text
  import Schema
  import Reports
  import Records
  import ServerHelpers

  type Store = map<string, string>

  const TokenKey := "adminToken"
  const LoginPath := "/admin-login"
  const OperationFailed := "Operation failed"
  const NoFaceYet := "Please capture the student face first"
  const EncodingFailed := "Failed to capture face encoding"

  /** The name the captured photo is uploaded under. */
  const CaptureFileName := "face_capture.jpg"

  // ---------------------------------------------------------------- filter

  /** The three report filters of the Attendance tab. */
  datatype Filters = Filters(searchTerm: string, dateFilter: string, courseFilter: string)

  /** The predicate of `filteredReports`.  An empty search term is contained
      in every name. */
  predicate Matches(f: Filters, r: Reports.ReportRow) {
    (IsInfix(Lower(f.searchTerm), Lower(r.student.name))
     || IsInfix(Lower(f.searchTerm), Lower(r.student.rollNumber)))
    && (f.dateFilter == "" || r.date == f.dateFilter)
    && (f.courseFilter == "" || r.student.course == f.courseFilter)
  }

  /** `a` is `b` with some elements left out, the rest in their order. */
  predicate IsSubsequence<T(==)>(a: seq<T>, b: seq<T>)
    decreases |b|
  {
    a == [] || (b != [] && ((a[0] == b[0] && IsSubsequence(a[1..], b[1..])) || IsSubsequence(a, b[1..])))
  }

  /** `filteredReports`: `Array.prototype.filter` with `Matches`. */
  function FilteredReports(reports: seq<Reports.ReportRow>, f: Filters): (r: seq<Reports.ReportRow>)
    ensures forall x :: x in r <==> x in reports && Matches(f, x)
    ensures IsSubsequence(r, reports)
  {
    if reports == [] then []
    else
      var rest := FilteredReports(reports[1..], f);
      if Matches(f, reports[0]) then [reports[0]] + rest else rest
  }

  /** `clearFilters`. */
  function ClearFilters(f: Filters): (r: Filters)
    ensures r.searchTerm == "" && r.dateFilter == "" && r.courseFilter == ""
  {
    Filters("", "", "")
  }

  /** The empty string occurs in every string. */
  lemma EmptyInfix(s: string)
    ensures IsInfix("", s)
  {
  }

  /** With the filters cleared the list is shown in full. */
  lemma {:induction false} ClearedFiltersShowAll(reports: seq<Reports.ReportRow>, f: Filters)
    ensures FilteredReports(reports, ClearFilters(f)) == reports
  {
    if reports != [] {
      EmptyInfix(Lower(reports[0].student.name));
      ClearedFiltersShowAll(reports[1..], f);
      assert reports == [reports[0]] + reports[1..];
    }
  }

  /** The client's date filter agrees with the server's: a rendered row
      carries the `%Y-%m-%d` text the server compares against. */
  lemma DateFilterAgrees(j: Reports.Joined, d: string)
    requires d != ""
    ensures (Reports.Render(j).date == d) <==> Reports.Keeps(Reports.Criteria("", "", d, ""), j)
  {
  }

  // ---------------------------------------------------------------- errors

  /** What a failed request hands to `handleApiError`: the HTTP status and
      the reply's `message`/`error` fields when there was a reply, and the
      exception's own message. */
  datatype ApiError = ApiError(status: Option<nat>, dataMessage: Option<string>, dataError: Option<string>,
                               message: string)

  /** A JavaScript string is truthy: present and not empty. */
  predicate Truthy(s: Option<string>) {
    s.Some? && s.value != ""
  }

  /** The effects of an error: the toast text, the store afterwards, and
      where the page navigates, if anywhere. */
  datatype Handled = Handled(toast: string, store: Store, navigate: Option<string>)

  /** `handleApiError`. */
  function HandleApiError(err: ApiError, store: Store): (h: Handled)
    ensures Truthy(err.dataMessage) ==> h.toast == err.dataMessage.value
    ensures !Truthy(err.dataMessage) && Truthy(err.dataError) ==> h.toast == err.dataError.value
    ensures !Truthy(err.dataMessage) && !Truthy(err.dataError) && err.message != "" ==> h.toast == err.message
    ensures !Truthy(err.dataMessage) && !Truthy(err.dataError) && err.message == "" ==> h.toast == OperationFailed
    ensures err.status == Some(401) ==> h.store == store - {TokenKey} && h.navigate == Some(LoginPath)
    ensures err.status != Some(401) ==> h.store == store && h.navigate.None?
  {
    var text := if Truthy(err.dataMessage) then err.dataMessage.value
                else if Truthy(err.dataError) then err.dataError.value
                else if err.message != "" then err.message
                else OperationFailed;
    if err.status == Some(401) then Handled(text, store - {TokenKey}, Some(LoginPath))
    else Handled(text, store, None)
  }

  /** The token survives an error exactly when the status is not 401. */
  lemma TokenRemovedIff401(err: ApiError, store: Store)
    requires TokenKey in store
    ensures TokenKey in HandleApiError(err, store).store <==> err.status != Some(401)
  {
  }

  /** The toast is never empty. */
  lemma ErrorToastNonEmpty(err: ApiError, store: Store)
    ensures HandleApiError(err, store).toast != ""
  {
  }

  // ---------------------------------------------------------------- state

  /** `formData`. */
  datatype StudentForm = StudentForm(name: string, email: string, rollNumber: string, course: string,
                                     password: string)

  const DefaultForm := StudentForm("", "", "", "CS", "")

  /** The page state this model follows.  `attached` records that the
      mounted `<video>` element holds a running stream as its source;
      `stray` counts the running streams that no mounted element holds any
      more. */
  datatype State = State(
    form: StudentForm,
    editMode: bool,
    currentStudentId: Option<nat>,
    faceEncoding: Option<string>,
    capturing: bool,
    cameraReady: bool,
    attached: bool,
    stray: nat,
    loadingSubmit: bool,
    loadingCapturing: bool)

  /** The `<video>` and `<canvas>` elements are on the page.  They sit inside
      the students tab, which the model takes to be the one shown: the tab
      switch is not part of the state, and leaving the tab is the `Leave`
      event. */
  predicate VideoMounted(st: State) {
    st.capturing && !st.editMode
  }

  /** Some stream the page opened is still running: the camera is on. */
  predicate CameraOn(st: State) {
    st.attached || st.stray > 0
  }

  /** The Capture Face button is enabled. */
  predicate CaptureFaceEnabled(st: State) {
    st.cameraReady && !st.loadingCapturing
  }

  // ---------------------------------------------------------------- camera

  /** The synchronous part of `startCamera`. */
  function StartCamera(st: State): (r: State)
    ensures r.capturing && !r.cameraReady
    ensures r.(capturing := st.capturing, cameraReady := st.cameraReady) == st
  {
    st.(capturing := true, cameraReady := false)
  }

  /** `getUserMedia` settled.  A granted stream runs from then on; it becomes
      the mounted video's source if there is one, replacing (not stopping)
      a stream already there, and otherwise reaches no element at all.  A
      refusal shows a toast and turns capturing off, which unmounts the
      video: a stream it held keeps running. */
  function CameraAcquired(st: State, granted: bool): (r: State)
    ensures r.cameraReady == st.cameraReady
    ensures granted ==> CameraOn(r) && (r.attached <==> st.attached || VideoMounted(st))
    ensures granted ==> r.stray == st.stray + (if VideoMounted(st) && !st.attached then 0 else 1)
    ensures granted ==> r.(attached := st.attached, stray := st.stray) == st
    ensures !granted ==> !r.capturing && !r.attached && (CameraOn(r) <==> CameraOn(st))
    ensures !granted ==> r.(capturing := st.capturing, attached := st.attached, stray := st.stray) == st
  {
    if !granted then Unmount(st).(capturing := false)
    else if VideoMounted(st) then st.(attached := true, stray := if st.attached then st.stray + 1 else st.stray)
    else st.(stray := st.stray + 1)
  }

  /** `onloadedmetadata` of the video element: only a stream it was given
      can load. */
  function MetadataLoaded(st: State): (r: State)
    ensures st.attached ==> r == st.(cameraReady := true)
    ensures !st.attached ==> r == st
  {
    if st.attached then st.(cameraReady := true) else st
  }

  /** The `<video>` element leaves the page: in edit mode, under the loading
      spinner of a refetch, or on another tab.  React clears `videoRef`; a
      stream the element showed keeps running, held by nothing. */
  function Unmount(st: State): (r: State)
    ensures !r.attached && (CameraOn(r) <==> CameraOn(st))
    ensures r.(attached := st.attached, stray := st.stray) == st
  {
    st.(attached := false, stray := if st.attached then st.stray + 1 else st.stray)
  }

  /** `stopCamera`.  The tracks are reached only through `videoRef`, so only
      a stream the mounted video holds is stopped; stray streams run on. */
  function StopCamera(st: State): (r: State)
    ensures !r.capturing && !r.cameraReady && !r.attached
    ensures CameraOn(r) <==> st.stray > 0
    ensures r.(capturing := st.capturing, cameraReady := st.cameraReady, attached := st.attached) == st
  {
    st.(capturing := false, cameraReady := false, attached := false)
  }

  /** `stopCamera` as it is evidently meant: the page keeps every stream it
      opens in a ref of its own and stops them there, whatever is mounted. */
  function CorrectedStopCamera(st: State): (r: State)
    ensures !CameraOn(r) && !r.capturing && !r.cameraReady
    ensures r.(capturing := st.capturing, cameraReady := st.cameraReady, attached := st.attached,
               stray := st.stray) == st
  {
    st.(capturing := false, cameraReady := false, attached := false, stray := 0)
  }

  // ---------------------------------------------------------------- form

  /** The fields `resetForm` sets before it stops the camera. */
  function ClearedForm(st: State): State {
    st.(form := DefaultForm, editMode := false, currentStudentId := None, faceEncoding := None,
        capturing := false)
  }

  /** `resetForm`. */
  function ResetForm(st: State): (r: State)
    ensures r.form == DefaultForm && !r.editMode && r.currentStudentId.None? && r.faceEncoding.None?
    ensures !r.capturing && !r.cameraReady && !r.attached
    ensures CameraOn(r) <==> st.stray > 0
    ensures r.loadingSubmit == st.loadingSubmit && r.loadingCapturing == st.loadingCapturing
  {
    StopCamera(ClearedForm(st))
  }

  /** `resetForm` with the corrected `stopCamera`. */
  function CorrectedResetForm(st: State): (r: State)
    ensures r.form == DefaultForm && !r.editMode && r.currentStudentId.None? && r.faceEncoding.None?
    ensures !r.capturing && !r.cameraReady && !CameraOn(r)
    ensures r.loadingSubmit == st.loadingSubmit && r.loadingCapturing == st.loadingCapturing
  {
    CorrectedStopCamera(ClearedForm(st))
  }

  /** A row of the students list as the client holds it. */
  datatype ListedStudent = ListedStudent(id: nat, name: string, email: string, rollNumber: string, course: string)

  function Listed(s: Schema.Student): ListedStudent {
    ListedStudent(s.id, s.name, s.email, s.rollNumber, s.course)
  }

  /** `handleEditStudent`.  Turning edit mode on unmounts the video element;
      the camera is not stopped. */
  function HandleEditStudent(st: State, s: ListedStudent): (r: State)
    ensures r.form == StudentForm(s.name, s.email, s.rollNumber, s.course, "")
    ensures r.editMode && r.currentStudentId == Some(s.id)
    ensures r.faceEncoding == st.faceEncoding && r.capturing == st.capturing
    ensures !r.attached && (CameraOn(r) <==> CameraOn(st))
  {
    Unmount(st).(form := StudentForm(s.name, s.email, s.rollNumber, s.course, ""), editMode := true,
                 currentStudentId := Some(s.id))
  }

  /** The cleanup of the fetch effect when the tab changes.  React has
      already detached the video's ref when it runs, so `stopCamera` finds
      no element. */
  function LeaveTab(st: State): (r: State)
    ensures !r.capturing && !r.cameraReady && !r.attached
    ensures CameraOn(r) <==> CameraOn(st)
  {
    StopCamera(Unmount(st))
  }

  // ---------------------------------------------------------------- events

  /** The camera-related events of the page, for the reachability lemmas. */
  datatype Event =
    | Start
    | Acquired(granted: bool)
    | Metadata
    | Stop
    | Reset
    | Edit(s: ListedStudent)
    | Leave

  function Step(st: State, e: Event): State {
    match e
    case Start => StartCamera(st)
    case Acquired(granted) => CameraAcquired(st, granted)
    case Metadata => MetadataLoaded(st)
    case Stop => StopCamera(st)
    case Reset => ResetForm(st)
    case Edit(s) => HandleEditStudent(st, s)
    case Leave => LeaveTab(st)
  }

  /** The same events with the corrected `stopCamera`. */
  function CorrectedStep(st: State, e: Event): State {
    match e
    case Stop => CorrectedStopCamera(st)
    case Reset => CorrectedResetForm(st)
    case Leave => CorrectedStopCamera(Unmount(st))
    case _ => Step(st, e)
  }

  function Run(st: State, es: seq<Event>): State
    decreases |es|
  {
    if es == [] then st else Run(Step(st, es[0]), es[1..])
  }

  /** The camera becomes ready only when the video element reports its
      metadata, and only for a stream that was attached. */
  lemma ReadyOnlyByMetadata(st: State, e: Event)
    requires !st.cameraReady && Step(st, e).cameraReady
    ensures e == Metadata && st.attached
  {
  }

  /** Starting the camera always disables Capture Face until the metadata
      arrives. */
  lemma StartDisablesCapture(st: State)
    ensures !CaptureFaceEnabled(StartCamera(st))
  {
  }

  /** Stopping is idempotent and safe without a stream. */
  lemma StopCameraIdempotent(st: State)
    ensures StopCamera(StopCamera(st)) == StopCamera(st)
    ensures !st.attached && !st.capturing && !st.cameraReady ==> StopCamera(st) == st
  {
  }

  /** A granted stream on a freshly started camera, then its metadata, make
      the camera ready. */
  lemma StartGrantLoad(st: State)
    requires !st.editMode
    ensures var r := MetadataLoaded(CameraAcquired(StartCamera(st), true));
            r.capturing && r.cameraReady && r.attached
  {
  }

  /** Only a mounted video holds a stream: every event keeps `attached`
      within `VideoMounted`. */
  lemma StepKeepsAttachedMounted(st: State, e: Event)
    requires st.attached ==> VideoMounted(st)
    ensures Step(st, e).attached ==> VideoMounted(Step(st, e))
  {
  }

  /** No event stops a stray stream. */
  lemma StrayNeverStops(st: State, e: Event)
    ensures Step(st, e).stray >= st.stray
  {
    match e
    case Acquired(granted) =>
      assert Step(st, e) == CameraAcquired(st, granted);
    case Edit(s) =>
      assert Step(st, e) == HandleEditStudent(st, s);
    case _ =>
  }

  /** Once a stream is stray, the camera stays on whatever the page does
      afterwards. */
  lemma {:induction false} StrayStaysOn(st: State, es: seq<Event>)
    requires st.stray > 0
    ensures CameraOn(Run(st, es)) && Run(st, es).stray >= st.stray
    decreases |es|
  {
    if es != [] {
      StrayNeverStops(st, es[0]);
      StrayStaysOn(Step(st, es[0]), es[1..]);
    }
  }

  /** As written, the camera stays on after it was started and then left:
      by editing a student and cancelling, or by changing tabs.  No later
      event turns it off (`StrayStaysOn`). */
  lemma CameraLeftOn(st: State, s: ListedStudent)
    requires !st.editMode
    ensures var r := ResetForm(HandleEditStudent(CameraAcquired(StartCamera(st), true), s));
            CameraOn(r) && r.stray > 0 && !r.capturing
    ensures var r := LeaveTab(CameraAcquired(StartCamera(st), true));
            CameraOn(r) && r.stray > 0 && !r.capturing
  {
  }

  /** With the corrected `stopCamera`, stopping, resetting the form and
      leaving the tab each turn the camera off. */
  lemma CorrectedExitsStopCamera(st: State, e: Event)
    requires e.Stop? || e.Reset? || e.Leave?
    ensures !CameraOn(CorrectedStep(st, e)) && !CorrectedStep(st, e).capturing
  {
  }

  // ---------------------------------------------------------------- capture face

  /** How the encoding request of `captureFace` ended. */
  datatype EncodingReply =
    | Encoded(encoding: string)
    | NotEncoded(message: Option<string>)
    | EncodingError(err: ApiError)

  /** `captureFace`: nothing happens without the video and canvas elements;
      otherwise the encoding is stored or the error reported, and the busy
      flag is released. */
  function CaptureFace(st: State, store: Store, reply: EncodingReply): (r: (State, Option<Handled>))
    ensures !VideoMounted(st) ==> r == (st, None)
    ensures VideoMounted(st) ==> !r.0.loadingCapturing
    ensures VideoMounted(st) && reply.Encoded? ==>
              r.0 == st.(faceEncoding := Some(reply.encoding), loadingCapturing := false) && r.1.None?
    ensures VideoMounted(st) && !reply.Encoded? ==> r.0 == st.(loadingCapturing := false) && r.1.Some?
    ensures VideoMounted(st) && reply.NotEncoded? ==>
              r.1.Some?
              && r.1.value.toast == (if Truthy(reply.message) then reply.message.value else EncodingFailed)
  {
    if !VideoMounted(st) then (st, None)
    else match reply
      case Encoded(encoding) => (st.(faceEncoding := Some(encoding), loadingCapturing := false), None)
      case NotEncoded(message) =>
        // The route throws a plain `Error` with the reply's message.
        var text := if Truthy(message) then message.value else EncodingFailed;
        (st.(loadingCapturing := false), Some(HandleApiError(ApiError(None, None, None, text), store)))
      case EncodingError(err) => (st.(loadingCapturing := false), Some(HandleApiError(err, store)))
  }

  // ---------------------------------------------------------------- submit

  /** The request `handleStudentSubmit` sends. */
  datatype Request =
    | Put(id: Option<nat>, form: StudentForm)
    | PostMultipart(form: StudentForm, photoName: string)
    | PostJson(form: StudentForm, faceEncoding: string)

  /** How the request ended: a 2xx reply with its `success` field, or an
      exception. */
  datatype SubmitReply = Ok(success: bool) | Err(err: ApiError)

  /** Everything a submit does: the state after `finally`, the request sent,
      the error handling, and whether the page left for the login. */
  datatype Submitted = Submitted(state: State, request: Option<Request>, store: Store,
                                 toast: Option<string>, navigate: Option<string>)

  /** The request of the current mode; `None` in create mode without an
      encoding. */
  function RequestFor(st: State): (q: Option<Request>)
    ensures st.editMode ==> q == Some(Put(st.currentStudentId, st.form))
    ensures !st.editMode && !Truthy(st.faceEncoding) ==> q.None?
    ensures !st.editMode && Truthy(st.faceEncoding) && VideoMounted(st)
            ==> q == Some(PostMultipart(st.form, CaptureFileName))
    ensures !st.editMode && Truthy(st.faceEncoding) && !VideoMounted(st)
            ==> q == Some(PostJson(st.form, st.faceEncoding.value))
  {
    if st.editMode then Some(Put(st.currentStudentId, st.form))
    else if !Truthy(st.faceEncoding) then None
    else if VideoMounted(st) then Some(PostMultipart(st.form, CaptureFileName))
    else Some(PostJson(st.form, st.faceEncoding.value))
  }

  /** `handleStudentSubmit`. */
  function HandleStudentSubmit(st: State, store: Store, reply: SubmitReply): (s: Submitted)
    ensures !s.state.loadingSubmit
    ensures !Truthy(if TokenKey in store then Some(store[TokenKey]) else None)
            ==> s == Submitted(st.(loadingSubmit := false), None, store, None, Some(LoginPath))
    ensures s.request.Some? ==> s.request == RequestFor(st)
    ensures TokenKey in store && store[TokenKey] != "" ==> s.request == RequestFor(st)
    ensures TokenKey in store && store[TokenKey] != "" && !st.editMode && !Truthy(st.faceEncoding)
            ==> s == Submitted(st.(loadingSubmit := false), None, store, Some(NoFaceYet), None)
    ensures s.request.Some? && reply == Ok(true) ==> s.state == ResetForm(Unmount(st)).(loadingSubmit := false)
    ensures s.request.Some? && reply == Ok(true) ==> !s.state.capturing && (CameraOn(s.state) <==> CameraOn(st))
    ensures s.request.Some? && reply == Ok(false) ==> s.state == st.(loadingSubmit := false)
    ensures s.request.Some? && reply.Err? ==>
              var h := HandleApiError(reply.err, store);
              s == Submitted(st.(loadingSubmit := false), s.request, h.store, Some(h.toast), h.navigate)
  {
    if TokenKey !in store || store[TokenKey] == "" then
      Submitted(st.(loadingSubmit := false), None, store, None, Some(LoginPath))
    else match RequestFor(st)
      case None => Submitted(st.(loadingSubmit := false), None, store, Some(NoFaceYet), None)
      case Some(q) =>
        match reply
        case Ok(success) =>
          // On success the list is refetched first: its loading spinner
          // unmounts the video, so the reset (and the multipart branch's
          // extra `stopCamera`) find no stream to stop.
          if success then Submitted(ResetForm(Unmount(st)).(loadingSubmit := false), Some(q), store, None, None)
          else Submitted(st.(loadingSubmit := false), Some(q), store, None, None)
        case Err(err) =>
          var h := HandleApiError(err, store);
          Submitted(st.(loadingSubmit := false), Some(q), h.store, Some(h.toast), h.navigate)
  }

  /** As written, a successful create with the camera showing leaves the
      camera on, though the page calls `stopCamera` twice; with the
      corrected `stopCamera` the same reset turns it off. */
  lemma CreateLeavesCameraOn(st: State, store: Store)
    requires TokenKey in store && store[TokenKey] != ""
    requires !st.editMode && Truthy(st.faceEncoding) && st.capturing && st.attached
    ensures HandleStudentSubmit(st, store, Ok(true)).request == Some(PostMultipart(st.form, CaptureFileName))
    ensures CameraOn(HandleStudentSubmit(st, store, Ok(true)).state)
    ensures !CameraOn(CorrectedResetForm(Unmount(st)))
  {
  }

  /** The five text fields as a form body carries them. */
  function FormFields(f: StudentForm): Records.Form {
    map["name" := f.name, "email" := f.email, "roll_number" := f.rollNumber, "course" := f.course,
        "password" := f.password]
  }

  lemma FormFieldsRead(f: StudentForm)
    ensures var data := FormFields(f);
            "name" in data && "course" in data && "password" in data
            && data["name"] == f.name && data["course"] == f.course && data["password"] == f.password
  {
  }

  /** What the server's `request.form` holds for a request as the page sends
      it: the fields of the multipart body; nothing for the two JSON bodies,
      the edit included, since the server reads no JSON in these routes. */
  function ServerForm(q: Request): (data: Records.Form)
    ensures q.PostMultipart? <==> data != map[]
    ensures data != map[] ==> data == FormFields(q.form)
  {
    if q.PostMultipart? then
      var fields := FormFields(q.form);
      assert "name" in fields;
      fields
    else map[]
  }

  /** The edit as it is evidently meant to reach the server: sent as form
      data, like the create request, so that `request.form` holds its
      fields. */
  function CorrectedServerForm(q: Request): (data: Records.Form)
    ensures q.PostJson? <==> data == map[]
    ensures data != map[] ==> data == FormFields(q.form)
  {
    if q.PostJson? then map[]
    else
      var fields := FormFields(q.form);
      assert "name" in fields;
      fields
  }

  /** The multipart photo's name passes the server's upload check. */
  lemma CaptureNameAllowed()
    ensures ServerHelpers.AllowedFile(CaptureFileName)
  {
    var name := CaptureFileName;
    LastIndexOfIs(name, '.', 12);
    assert name[13..] == "jpg";
    LowerKeepsLower("jpg");
  }

  /** The JSON fallback, taken when the encoding was captured but the camera
      was stopped before submitting, carries no photo part: the server's
      create route refuses it with "No photo uploaded", whatever the form
      holds. */
  lemma JsonFallbackRefused(st: State, students: seq<Schema.Student>, encode: Schema.Bytes -> Option<string>,
                            storedName: string, hash: string -> string)
    requires !st.editMode && Truthy(st.faceEncoding) && !VideoMounted(st)
    ensures RequestFor(st).value.PostJson?
    ensures Records.CreateStudent(students, None, ServerForm(RequestFor(st).value), encode, storedName, hash)
            == Records.Refuse(400, Records.NoPhoto, students)
  {
  }

  /** As the page is written, saving an edit changes nothing on the server,
      whatever the form holds, and the server still answers "Student updated
      successfully". */
  lemma EditIgnoredByServer(st: State, students: seq<Schema.Student>, k: nat,
                            encode: Schema.Bytes -> Option<string>, storedName: string, hash: string -> string)
    requires Schema.KeysUnique(students) && k < |students|
    requires st.editMode && st.currentStudentId == Some(students[k].id)
    ensures RequestFor(st) == Some(Put(Some(students[k].id), st.form))
    ensures Records.UpdateStudent(students, students[k].id, None, ServerForm(RequestFor(st).value),
                                  encode, storedName, hash)
            == Records.Outcome(Schema.Reply(200, true, Records.Updated), students)
  {
    Records.EmptyUpdateChangesNothing(students, k, encode, storedName, hash);
  }

  /** With the edit sent as form data, an accepted save stores the edited
      name, course and, when one was typed, the new password. */
  lemma CorrectedEditApplies(st: State, students: seq<Schema.Student>, k: nat,
                             encode: Schema.Bytes -> Option<string>, storedName: string, hash: string -> string)
    requires Schema.KeysUnique(students) && k < |students|
    requires st.editMode && st.currentStudentId == Some(students[k].id)
    ensures var o := Records.UpdateStudent(students, students[k].id, None,
                                           CorrectedServerForm(RequestFor(st).value), encode, storedName, hash);
            o.reply.success ==>
              o.students[k].name == Strip(st.form.name) && o.students[k].course == st.form.course
              && (st.form.password != "" ==> o.students[k].passwordHash == hash(st.form.password))
              && (forall j :: 0 <= j < |students| && j != k ==> o.students[j] == students[j])
  {
    assert RequestFor(st) == Some(Put(st.currentStudentId, st.form));
    var data := CorrectedServerForm(Put(st.currentStudentId, st.form));
    FormFieldsRead(st.form);
    Records.UpdateStoresFields(students, k, data, encode, storedName, hash);
  }

  /** With the edit sent as form data, opening a student for editing and
      saving without touching the form is accepted and changes nothing. */
  lemma UntouchedEditSaves(st: State, students: seq<Schema.Student>, k: nat,
                           encode: Schema.Bytes -> Option<string>, storedName: string, hash: string -> string)
    requires Schema.KeysUnique(students) && k < |students|
    requires Strip(students[k].name) == students[k].name
    ensures var q := RequestFor(HandleEditStudent(st, Listed(students[k])));
            q == Some(Put(Some(students[k].id), StudentForm(students[k].name, students[k].email,
                                                            students[k].rollNumber, students[k].course, "")))
            && Records.UpdateStudent(students, students[k].id, None, CorrectedServerForm(q.value),
                                     encode, storedName, hash)
               == Records.Outcome(Schema.Reply(200, true, Records.Updated), students)
  {
    var s := students[k];
    var f := StudentForm(s.name, s.email, s.rollNumber, s.course, "");
    var edited := HandleEditStudent(st, Listed(s));
    assert edited.form == f && edited.editMode && edited.currentStudentId == Some(s.id);
    assert RequestFor(edited) == Some(Put(Some(s.id), f));
    var data := CorrectedServerForm(Put(Some(s.id), f));
    assert data == FormFields(f);
    Records.UnchangedEditSucceeds(students, k, data, encode, storedName, hash);
  }

  // ---------------------------------------------------------------- time

  /** `formatTime`: hours and minutes of an `HH:MM:SS` text.  A text without
      ':' gives its whole self followed by ":undefined". */
  function FormatTime(t: Option<string>): (r: string)
    ensures t.None? || t.value == "" ==> r == ""
    ensures t.Some? && t.value != "" && ':' !in t.value ==> r == t.value + ":undefined"
  {
    if t.None? || t.value == "" then ""
    else
      var parts := Split(t.value, ':');
      assert ':' !in t.value ==> parts == [t.value];
      parts[0] + ":" + (if |parts| > 1 then parts[1] else "undefined")
  }

  /** In general `formatTime` keeps the first two ':'-separated parts,
      joined by ':', whatever follows them. */
  lemma FormatTimeFirstTwoParts(h: string, m: string, rest: string)
    requires ':' !in h && ':' !in m
    requires rest == "" || rest[0] == ':'
    ensures FormatTime(Some(h + ":" + m + rest)) == h + ":" + m
  {
    var t := h + ":" + m + rest;
    assert t == h + [':'] + (m + rest);
    SplitFirst(h, m + rest, ':');
    SecondPart(m, rest);
    var parts := Split(t, ':');
    assert parts == [h] + Split(m + rest, ':');
    assert |parts| > 1 && parts[0] == h && parts[1] == m;
    assert t != "";
  }

  /** The first piece of `m + rest` is `m` when `rest` is empty or starts
      with the separator. */
  lemma SecondPart(m: string, rest: string)
    requires ':' !in m
    requires rest == "" || rest[0] == ':'
    ensures Split(m + rest, ':')[0] == m
  {
    if rest == "" {
      assert m + rest == m;
    } else {
      assert m + rest == m + [':'] + rest[1..];
      SplitFirst(m, rest[1..], ':');
    }
  }

  /** On the server's `%H:%M:%S` text, `formatTime` keeps hours and
      minutes. */
  lemma FormatTimeOfServerTime(t: Schema.Time)
    ensures FormatTime(Some(Schema.TimeText(t))) == ZeroPad(t.hour, 2) + ":" + ZeroPad(t.minute, 2)
  {
    var h, m, s := ZeroPad(t.hour, 2), ZeroPad(t.minute, 2), ZeroPad(t.second, 2);
    var parts := [h, m, s];
    assert Join(parts, ':') == Schema.TimeText(t) by {
      assert parts[1..] == [m, s];
      assert parts[1..][1..] == [s];
      assert Join([s], ':') == s;
      assert Join([m, s], ':') == m + [':'] + s;
      assert Join(parts, ':') == h + [':'] + (m + [':'] + s);
    }
    assert forall k :: 0 <= k < |parts| ==> ':' !in parts[k];
    JoinSplit(parts, ':');
    assert Schema.TimeText(t) != "";
  }
}

=== FILE: marking.dfy ===
/** The two attendance-marking routes of app.py, `mark_attendance` and
    `mark_attendance_enhanced`, as pure functions from the tables and the
    request to the reply and the new attendance table.

    The face-recognition library is not modelled: blink detection on one
    image, the eye state of one frame and face comparison are oracles passed
    in as functions.  The identity carried by the token and the clocks are
    parameters.  Two clocks are involved: the duplicate check reads the
    application's date (`today`, `datetime.now().date()`), while a new row
    is built without a date or time and so takes the database's defaults
    `current_date()` and `current_time()` (`stamp` and `now`).  Nothing
    makes the two dates agree. */
module Marking {
  import opened Wrappers
  import opened Text
  import opened Schema
  import opened ServerHelpers

  /** `FACE_RECOGNITION_THRESHOLD`. */
  const FaceRecognitionThreshold: real := 0.6
  /** `REQUIRED_BLINKS`. */
  const RequiredBlinks: nat := 2
  /** The enhanced route's minimum number of uploaded frames. */
  const MinFrames: nat := 3
  /** An accepted match needs a confidence of at least the threshold as a
      percentage, 60. */
  const AcceptConfidence: real := FaceRecognitionThreshold * 100.0

  /** What `detect_blinks` answers for one image. */
  datatype Liveness = Liveness(blinked: bool, message: string)

  /** What `compare_faces` answers: the library's match verdict and, when a
      face was found, the confidence `(1 - distance) * 100`. */
  datatype FaceMatch = FaceMatch(matched: bool, confidence: Option<real>)

  /** A marking route's reply (with the optional `confidence` and
      `blinks_detected` fields) and the attendance table after the request. */
  datatype MarkResult = MarkResult(reply: Reply, confidence: Option<real>, blinks: Option<nat>, rows: seq<Attendance>)

  const StudentNotFound := "Student not found"
  const NoEncoding := "No face encoding found for student"
  const AlreadyMarked := "Attendance already marked today"
  const NoImage := "No image provided"
  const BadImage := "Invalid image format"
  const NoImages := "No images provided"
  const TooFewFrames := "Need at least 3 consecutive frames"
  const NoValidImages := "No valid images provided"
  const Marked := "Attendance marked successfully!"
  const VerificationFailed := "Face verification failed"
  const MarkFailed := "Failed to mark attendance"

  /** At most one attendance row per student and calendar day. */
  ghost predicate OnePerDay(rows: seq<Attendance>) {
    forall i, j :: 0 <= i < j < |rows| ==>
      rows[i].studentId != rows[j].studentId || rows[i].date != rows[j].date
  }

  /** `check_duplicate_attendance`: the first row of this student dated `day`. */
  function CheckDuplicateAttendance(rows: seq<Attendance>, id: nat, day: Date): (r: Option<Attendance>)
    ensures r.None? <==> forall k :: 0 <= k < |rows| ==> rows[k].studentId != id || rows[k].date != day
    ensures r.Some? ==> r.value in rows && r.value.studentId == id && r.value.date == day
  {
    if rows == [] then None
    else if rows[0].studentId == id && rows[0].date == day then Some(rows[0])
    else CheckDuplicateAttendance(rows[1..], id, day)
  }

  /** A refusal: `success` false and the table untouched. */
  function Refuse(status: nat, message: string, rows: seq<Attendance>): MarkResult {
    MarkResult(Reply(status, false, message), None, None, rows)
  }

  /** The outcome of the checks both routes run first. */
  datatype Gate = Admit(student: Student) | Stop(result: MarkResult)

  /** The student must exist, have a stored encoding and no row for today,
      checked in that order. */
  function StudentGate(students: seq<Student>, rows: seq<Attendance>, identity: string, today: Date): (g: Gate)
    ensures g.Admit? <==>
      var s := FindByEmail(students, identity);
      s.Some? && HasEncoding(s.value) && CheckDuplicateAttendance(rows, s.value.id, today).None?
    ensures g.Admit? ==> Some(g.student) == FindByEmail(students, identity)
    ensures g.Stop? ==> g.result.rows == rows && !g.result.reply.success
    ensures FindByEmail(students, identity).None? ==> g == Stop(Refuse(404, StudentNotFound, rows))
    ensures var s := FindByEmail(students, identity);
            s.Some? && !HasEncoding(s.value) ==> g == Stop(Refuse(400, NoEncoding, rows))
    ensures var s := FindByEmail(students, identity);
            s.Some? && HasEncoding(s.value) && CheckDuplicateAttendance(rows, s.value.id, today).Some?
            ==> g == Stop(Refuse(400, AlreadyMarked, rows))
  {
    match FindByEmail(students, identity)
    case None => Stop(Refuse(404, StudentNotFound, rows))
    case Some(s) =>
      if !HasEncoding(s) then Stop(Refuse(400, NoEncoding, rows))
      else if CheckDuplicateAttendance(rows, s.id, today).Some? then Stop(Refuse(400, AlreadyMarked, rows))
      else Admit(s)
  }

  /** The oracle's answer is good enough to record attendance. */
  predicate Accepted(m: FaceMatch) {
    m.matched && m.confidence.Some? && m.confidence.value >= AcceptConfidence
  }

  /** The `confidence` field of a failed verification: `round(c, 2) if c
      else None`, so an absent or zero confidence is reported as none. */
  function ReportedConfidence(c: Option<real>): (r: Option<real>)
    ensures r.Some? ==> c == r && r.value != 0.0
    ensures c.Some? && c.value != 0.0 ==> r == c
  {
    if c.Some? && c.value != 0.0 then c else None
  }

  /** The final step of both routes: insert a row exactly when the face
      matched with enough confidence.  A match without a confidence makes
      the comparison `None >= 60` raise, which the route reports as 500. */
  function Decide(rows: seq<Attendance>, s: Student, stamp: Date, now: Time, m: FaceMatch, blinks: Option<nat>): (r: MarkResult)
    ensures r.reply.success <==> Accepted(m)
    ensures Accepted(m) ==> r.rows == rows + [Attendance(s.id, stamp, now, m.confidence.value)]
                            && r.reply == Reply(200, true, Marked) && r.confidence == m.confidence
    ensures !Accepted(m) ==> r.rows == rows && r.blinks.None?
    ensures m.matched && m.confidence.None? ==> r.reply == Reply(500, false, MarkFailed)
    ensures !m.matched || (m.confidence.Some? && m.confidence.value < AcceptConfidence) ==>
              r.reply == Reply(200, false, VerificationFailed) && r.confidence == ReportedConfidence(m.confidence)
  {
    if !m.matched then
      MarkResult(Reply(200, false, VerificationFailed), ReportedConfidence(m.confidence), None, rows)
    else match m.confidence
      case None => Refuse(500, MarkFailed, rows)
      case Some(c) =>
        if c >= AcceptConfidence then
          MarkResult(Reply(200, true, Marked), Some(c), blinks, rows + [Attendance(s.id, stamp, now, c)])
        else
          MarkResult(Reply(200, false, VerificationFailed), ReportedConfidence(Some(c)), None, rows)
  }

  /** `mark_attendance`: the guard chain, then a single-image liveness check,
      then the face comparison against the stored encoding.  A new row is
      dated `stamp`, which need not be the `today` the guard looked for. */
  function MarkAttendance(
    students: seq<Student>, rows: seq<Attendance>, identity: string, today: Date, stamp: Date, now: Time,
    image: Option<Upload>, detectBlinks: Bytes -> Liveness, compareFaces: (string, Bytes) -> FaceMatch): (r: MarkResult)
    ensures r.rows == rows || (r.reply.success && |r.rows| == |rows| + 1 && r.rows[..|rows|] == rows)
    ensures r.reply.success ==> StudentGate(students, rows, identity, today).Admit?
    ensures r.reply.success ==>
      var s := StudentGate(students, rows, identity, today).student;
      && image.Some? && AllowedFile(image.value.filename)
      && detectBlinks(image.value.content).blinked
      && Accepted(compareFaces(s.faceEncoding.value, image.value.content))
      && r.rows == rows + [Attendance(s.id, stamp, now, compareFaces(s.faceEncoding.value, image.value.content).confidence.value)]
    ensures StudentGate(students, rows, identity, today).Stop? ==>
      r == StudentGate(students, rows, identity, today).result
    ensures StudentGate(students, rows, identity, today).Admit? ==>
      && (image.None? ==> r == Refuse(400, NoImage, rows))
      && (image.Some? && !AllowedFile(image.value.filename) ==> r == Refuse(400, BadImage, rows))
      && (image.Some? && AllowedFile(image.value.filename) && !detectBlinks(image.value.content).blinked
          ==> r == Refuse(400, detectBlinks(image.value.content).message, rows))
    ensures var g := StudentGate(students, rows, identity, today);
            g.Admit? && image.Some? && AllowedFile(image.value.filename) && detectBlinks(image.value.content).blinked
            ==> (r.reply.success <==> Accepted(compareFaces(g.student.faceEncoding.value, image.value.content)))
  {
    match StudentGate(students, rows, identity, today)
    case Stop(refusal) => refusal
    case Admit(s) =>
      if image.None? then Refuse(400, NoImage, rows)
      else if !AllowedFile(image.value.filename) then Refuse(400, BadImage, rows)
      else
        var live := detectBlinks(image.value.content);
        if !live.blinked then Refuse(400, live.message, rows)
        else Decide(rows, s, stamp, now, compareFaces(s.faceEncoding.value, image.value.content), None)
  }

  /** A marking request as the sequence lemma replays it. */
  datatype MarkRequest = MarkRequest(identity: string, today: Date, stamp: Date, now: Time, image: Option<Upload>)

  /** The application's date and the database's date agree on every request. */
  predicate ClocksAgree(reqs: seq<MarkRequest>) {
    forall k :: 0 <= k < |reqs| ==> reqs[k].stamp == reqs[k].today
  }

  /** The attendance table after serving `reqs` one after another. */
  function RunMarks(
    students: seq<Student>, rows: seq<Attendance>, reqs: seq<MarkRequest>,
    detectBlinks: Bytes -> Liveness, compareFaces: (string, Bytes) -> FaceMatch): seq<Attendance>
    decreases |reqs|
  {
    if reqs == [] then rows
    else
      var q := reqs[0];
      var r := MarkAttendance(students, rows, q.identity, q.today, q.stamp, q.now, q.image, detectBlinks, compareFaces);
      RunMarks(students, r.rows, reqs[1..], detectBlinks, compareFaces)
  }

  /** Appending a row to a table with one row per student and day keeps it
      so exactly when the duplicate check finds no row for that student on
      the new row's date. */
  lemma AppendKeepsOnePerDay(rows: seq<Attendance>, a: Attendance)
    requires OnePerDay(rows)
    ensures OnePerDay(rows + [a]) <==> CheckDuplicateAttendance(rows, a.studentId, a.date).None?
  {
    var all := rows + [a];
    if CheckDuplicateAttendance(rows, a.studentId, a.date).Some? {
      var k :| 0 <= k < |rows| && rows[k].studentId == a.studentId && rows[k].date == a.date;
      assert all[k] == rows[k] && all[|rows|] == a;
    }
  }

  /** One `mark_attendance` call adds a second row for a student and day
      exactly when a row of that student already carries the date the
      database stamps; when the two clocks agree on the date, never. */
  lemma MarkKeepsOnePerDay(
    students: seq<Student>, rows: seq<Attendance>, identity: string, today: Date, stamp: Date, now: Time,
    image: Option<Upload>, detectBlinks: Bytes -> Liveness, compareFaces: (string, Bytes) -> FaceMatch)
    requires OnePerDay(rows)
    ensures var r := MarkAttendance(students, rows, identity, today, stamp, now, image, detectBlinks, compareFaces);
            r.rows == rows
            || (OnePerDay(r.rows) <==> CheckDuplicateAttendance(rows, r.rows[|rows|].studentId, stamp).None?)
    ensures stamp == today ==>
              OnePerDay(MarkAttendance(students, rows, identity, today, stamp, now, image, detectBlinks, compareFaces).rows)
  {
    var r := MarkAttendance(students, rows, identity, today, stamp, now, image, detectBlinks, compareFaces);
    if r.rows != rows {
      var a := r.rows[|rows|];
      assert r.rows == rows + [a];
      AppendKeepsOnePerDay(rows, a);
    }
  }

  /** Under sequential execution, any sequence of marking requests on which
      the two clocks agree keeps at most one row per student and day. */
  lemma {:induction false} RunMarksKeepsOnePerDay(
    students: seq<Student>, rows: seq<Attendance>, reqs: seq<MarkRequest>,
    detectBlinks: Bytes -> Liveness, compareFaces: (string, Bytes) -> FaceMatch)
    requires OnePerDay(rows)
    ensures ClocksAgree(reqs) ==> OnePerDay(RunMarks(students, rows, reqs, detectBlinks, compareFaces))
    decreases |reqs|
  {
    if reqs != [] && ClocksAgree(reqs) {
      var q := reqs[0];
      assert q.stamp == q.today;
      assert ClocksAgree(reqs[1..]) by {
        forall k | 0 <= k < |reqs[1..]| ensures reqs[1..][k].stamp == reqs[1..][k].today {
          assert reqs[1..][k] == reqs[k + 1];
        }
      }
      MarkKeepsOnePerDay(students, rows, q.identity, q.today, q.stamp, q.now, q.image, detectBlinks, compareFaces);
      var r := MarkAttendance(students, rows, q.identity, q.today, q.stamp, q.now, q.image, detectBlinks, compareFaces);
      RunMarksKeepsOnePerDay(students, r.rows, reqs[1..], detectBlinks, compareFaces);
    }
  }

  /** After a successful mark, a request by the same student whose check
      reads the date the new row was stamped with is refused with
      "Attendance already marked today", whatever image it carries, and
      adds nothing. */
  lemma SecondMarkSameDayRefused(
    students: seq<Student>, rows: seq<Attendance>, identity: string, today: Date, stamp: Date, stamp2: Date,
    now: Time, later: Time, image: Option<Upload>, image2: Option<Upload>,
    detectBlinks: Bytes -> Liveness, compareFaces: (string, Bytes) -> FaceMatch)
    requires MarkAttendance(students, rows, identity, today, stamp, now, image, detectBlinks, compareFaces).reply.success
    ensures var rows1 := MarkAttendance(students, rows, identity, today, stamp, now, image, detectBlinks, compareFaces).rows;
            MarkAttendance(students, rows1, identity, stamp, stamp2, later, image2, detectBlinks, compareFaces)
              == Refuse(400, AlreadyMarked, rows1)
  {
    var rows1 := MarkAttendance(students, rows, identity, today, stamp, now, image, detectBlinks, compareFaces).rows;
    var s := StudentGate(students, rows, identity, today).student;
    assert rows1[|rows|].studentId == s.id && rows1[|rows|].date == stamp;
    assert CheckDuplicateAttendance(rows1, s.id, stamp).Some?;
  }

  /** When the database's date is not the application's (the two clocks on
      either side of midnight), the duplicate check looks for the wrong day:
      the same request served twice is accepted twice and leaves two rows
      for the student on the stamped day. */
  lemma SkewedClocksMarkTwice(
    students: seq<Student>, rows: seq<Attendance>, identity: string, today: Date, stamp: Date,
    now: Time, later: Time, image: Option<Upload>,
    detectBlinks: Bytes -> Liveness, compareFaces: (string, Bytes) -> FaceMatch)
    requires stamp != today
    requires MarkAttendance(students, rows, identity, today, stamp, now, image, detectBlinks, compareFaces).reply.success
    ensures var rows1 := MarkAttendance(students, rows, identity, today, stamp, now, image, detectBlinks, compareFaces).rows;
            var r2 := MarkAttendance(students, rows1, identity, today, stamp, later, image, detectBlinks, compareFaces);
            r2.reply.success && !OnePerDay(r2.rows)
  {
    var rows1 := MarkAttendance(students, rows, identity, today, stamp, now, image, detectBlinks, compareFaces).rows;
    var s := StudentGate(students, rows, identity, today).student;
    var a := rows1[|rows|];
    assert rows1 == rows + [a] && a.studentId == s.id && a.date == stamp;
    assert CheckDuplicateAttendance(rows1, s.id, today).None?;
    assert StudentGate(students, rows1, identity, today) == Admit(s);
    var r2 := MarkAttendance(students, rows1, identity, today, stamp, later, image, detectBlinks, compareFaces);
    assert r2.reply.success;
    var b := r2.rows[|rows1|];
    assert b.studentId == s.id && b.date == stamp;
    assert r2.rows[|rows|] == a;
  }

  // ---------------------------------------------------------------------
  // Blink counting of the enhanced route

  /** The eye state of the frames in which a face was found, in order: a
      frame is `None` when no landmarks were found, else `Some(closed)`. */
  function Considered(frames: seq<Option<bool>>): (c: seq<bool>)
    ensures |c| <= |frames|
  {
    if frames == [] then []
    else match frames[0]
      case None => Considered(frames[1..])
      case Some(closed) => [closed] + Considered(frames[1..])
  }

  /** Frames split anywhere contribute their considered frames in order. */
  lemma {:induction false} ConsideredAppend(a: seq<Option<bool>>, b: seq<Option<bool>>)
    ensures Considered(a + b) == Considered(a) + Considered(b)
    decreases |a|
  {
    if a != [] {
      assert (a + b)[0] == a[0];
      assert (a + b)[1..] == a[1..] + b;
      ConsideredAppend(a[1..], b);
      match a[0]
      case None =>
      case Some(x) =>
        assert Considered(a + b) == [x] + Considered(a[1..] + b);
    } else {
      assert a + b == b;
    }
  }

  /** `c` without its leading run of closed frames. */
  function DropClosed(c: seq<bool>): (d: seq<bool>)
    ensures |d| <= |c| && d == c[|c| - |d|..]
    ensures d == [] || !d[0]
  {
    if c != [] && c[0] then DropClosed(c[1..]) else c
  }

  /** The number of maximal runs of closed-eye frames: the blinks. */
  function ClosedRuns(c: seq<bool>): nat
    decreases |c|
  {
    if c == [] then 0
    else if c[0] then 1 + ClosedRuns(DropClosed(c[1..]))
    else ClosedRuns(c[1..])
  }

  /** The route's loop from some point on: `last` is the eye state of the
      last considered frame (`last_ear`), `count` the blinks so far.  A
      closed frame counts when the previous considered frame was open or
      there was none; a frame without a face is skipped and leaves `last`
      alone. */
  function Scan(frames: seq<Option<bool>>, last: Option<bool>, count: nat): nat
    decreases |frames|
  {
    if frames == [] then count
    else match frames[0]
      case None => Scan(frames[1..], last, count)
      case Some(closed) =>
        var blink := closed && (last.None? || !last.value);
        Scan(frames[1..], Some(closed), if blink then count + 1 else count)
  }

  /** `blink_count` after the loop over all frames. */
  function BlinkCount(frames: seq<Option<bool>>): nat {
    Scan(frames, None, 0)
  }

  /** The loop's count from any state: a run already open when the scan
      resumes is not counted again. */
  lemma {:induction false} ScanCountsRuns(frames: seq<Option<bool>>, last: Option<bool>, count: nat)
    ensures Scan(frames, last, count)
            == count + (if last == Some(true) then ClosedRuns(DropClosed(Considered(frames)))
                        else ClosedRuns(Considered(frames)))
    decreases |frames|
  {
    if frames != [] {
      var rest := frames[1..];
      match frames[0]
      case None =>
        ScanCountsRuns(rest, last, count);
        assert Considered(frames) == Considered(rest);
      case Some(closed) =>
        var c := Considered(rest);
        assert Considered(frames) == [closed] + c;
        assert ([closed] + c)[1..] == c;
        var blink := closed && (last.None? || !last.value);
        ScanCountsRuns(rest, Some(closed), if blink then count + 1 else count);
        if closed {
          assert DropClosed([closed] + c) == DropClosed(c);
          assert ClosedRuns([closed] + c) == 1 + ClosedRuns(DropClosed(c));
        } else {
          assert DropClosed([closed] + c) == [closed] + c;
          assert ClosedRuns([closed] + c) == ClosedRuns(c);
        }
    }
  }

  /** The blink count is the number of maximal runs of closed eyes among the
      frames with a face. */
  lemma BlinkCountIsClosedRuns(frames: seq<Option<bool>>)
    ensures BlinkCount(frames) == ClosedRuns(Considered(frames))
  {
    ScanCountsRuns(frames, None, 0);
  }

  /** Runs of closed eyes are separated by open frames, so `n` runs need at
      least `2n - 1` frames. */
  lemma {:induction false} ClosedRunsBound(c: seq<bool>)
    ensures 2 * ClosedRuns(c) <= |c| + 1
    decreases |c|
  {
    if c != [] {
      if c[0] {
        var d := DropClosed(c[1..]);
        if d != [] {
          ClosedRunsBound(d[1..]);
          assert ClosedRuns(d) == ClosedRuns(d[1..]);
        }
      } else {
        ClosedRunsBound(c[1..]);
      }
    }
  }

  /** Frames without a face change nothing: removing one leaves the count. */
  lemma FacelessFrameIgnored(a: seq<Option<bool>>, b: seq<Option<bool>>)
    ensures BlinkCount(a + [None] + b) == BlinkCount(a + b)
  {
    ConsideredAppend(a + [None], b);
    ConsideredAppend(a, [None]);
    ConsideredAppend(a, b);
    var none: seq<Option<bool>> := [None];
    assert none[1..] == [];
    assert Considered(none) == [];
    assert Considered(a + [None]) == Considered(a);
    BlinkCountIsClosedRuns(a + [None] + b);
    BlinkCountIsClosedRuns(a + b);
  }

  /** The count never exceeds the number of frames with a face, and reaching
      `REQUIRED_BLINKS` needs at least three of them. */
  lemma BlinkCountBounds(frames: seq<Option<bool>>)
    ensures BlinkCount(frames) <= |Considered(frames)| <= |frames|
    ensures BlinkCount(frames) >= RequiredBlinks ==> |Considered(frames)| >= 3
  {
    BlinkCountIsClosedRuns(frames);
    ClosedRunsBound(Considered(frames));
  }

  /** The contents of the uploads whose name passes `allowed_file`, in order. */
  function ValidFrames(images: seq<Upload>): (v: seq<Bytes>)
    ensures |v| <= |images|
  {
    if images == [] then []
    else if AllowedFile(images[0].filename) then [images[0].content] + ValidFrames(images[1..])
    else ValidFrames(images[1..])
  }

  /** No frame is kept exactly when every upload's name is refused. */
  lemma {:induction false} ValidFramesEmpty(images: seq<Upload>)
    ensures ValidFrames(images) == [] <==> forall k :: 0 <= k < |images| ==> !AllowedFile(images[k].filename)
  {
    if images != [] {
      var rest := images[1..];
      ValidFramesEmpty(rest);
      if !AllowedFile(images[0].filename) {
        assert ValidFrames(images) == ValidFrames(rest);
        forall k | 0 <= k < |images| && (forall m :: 0 <= m < |rest| ==> !AllowedFile(rest[m].filename))
          ensures !AllowedFile(images[k].filename)
        {
          if k > 0 {
            assert images[k] == rest[k - 1];
          }
        }
        forall m | 0 <= m < |rest| && (forall k :: 0 <= k < |images| ==> !AllowedFile(images[k].filename))
          ensures !AllowedFile(rest[m].filename)
        {
          assert rest[m] == images[m + 1];
        }
      }
    }
  }

  /** The frame the enhanced route compares is the content of the last
      upload with an allowed name. */
  lemma {:induction false} ValidFramesAppend(a: seq<Upload>, b: seq<Upload>)
    ensures ValidFrames(a + b) == ValidFrames(a) + ValidFrames(b)
  {
    if a != [] {
      var ab := a + b;
      assert ab[0] == a[0] && ab[1..] == a[1..] + b;
      ValidFramesAppend(a[1..], b);
      if AllowedFile(a[0].filename) {
        assert ValidFrames(ab) == [a[0].content] + ValidFrames(a[1..] + b);
        assert ValidFrames(a) == [a[0].content] + ValidFrames(a[1..]);
      } else {
        assert ValidFrames(ab) == ValidFrames(a[1..] + b);
        assert ValidFrames(a) == ValidFrames(a[1..]);
      }
    } else {
      assert a + b == b;
    }
  }

  lemma LastValidFrame(images: seq<Upload>, k: nat)
    requires k < |images| && AllowedFile(images[k].filename)
    requires forall m :: k < m < |images| ==> !AllowedFile(images[m].filename)
    ensures var v := ValidFrames(images); v != [] && v[|v| - 1] == images[k].content
  {
    var before, at, after := images[..k], images[k..k + 1], images[k + 1..];
    assert images == before + at + after;
    forall m | 0 <= m < |after| ensures !AllowedFile(after[m].filename) {
      assert after[m] == images[k + 1 + m];
    }
    ValidFramesEmpty(after);
    assert ValidFrames(at) == [images[k].content];
    ValidFramesAppend(before + at, after);
    ValidFramesAppend(before, at);
  }

  /** The eye-state oracle applied to every valid frame. */
  function Observe(valid: seq<Bytes>, eyesClosed: Bytes -> Option<bool>): (frames: seq<Option<bool>>)
    ensures |frames| == |valid|
    ensures forall k :: 0 <= k < |valid| ==> frames[k] == eyesClosed(valid[k])
  {
    seq(|valid|, k requires 0 <= k < |valid| => eyesClosed(valid[k]))
  }

  /** The refusal text for too few blinks, e.g. "Insufficient blinks
      detected (1/2)". */
  function InsufficientBlinks(n: nat): string {
    "Insufficient blinks detected (" + Decimal(n) + "/" + Decimal(RequiredBlinks) + ")"
  }

  /** What `mark_attendance_enhanced` does once the student is admitted,
      given the number of uploads, the valid frames and the blink count:
      at least three uploads, at least one valid frame, at least two blinks,
      and the face comparison on the last valid frame. */
  function EnhancedChecks(
    rows: seq<Attendance>, s: Student, stamp: Date, now: Time,
    uploads: nat, valid: seq<Bytes>, n: nat, compareFaces: (string, Bytes) -> FaceMatch): (r: MarkResult)
    requires HasEncoding(s)
    ensures r.rows == rows || (r.reply.success && |r.rows| == |rows| + 1 && r.rows[..|rows|] == rows)
    ensures uploads == 0 ==> r == Refuse(400, NoImages, rows)
    ensures 0 < uploads < MinFrames ==> r == Refuse(400, TooFewFrames, rows)
    ensures uploads >= MinFrames && valid == [] ==> r == Refuse(400, NoValidImages, rows)
    ensures uploads >= MinFrames && valid != [] && n < RequiredBlinks ==> r == Refuse(400, InsufficientBlinks(n), rows)
    ensures uploads >= MinFrames && valid != [] && n >= RequiredBlinks
            ==> (r.reply.success <==> Accepted(compareFaces(s.faceEncoding.value, valid[|valid| - 1])))
    ensures r.reply.success ==>
      && uploads >= MinFrames && valid != [] && n >= RequiredBlinks
      && var m := compareFaces(s.faceEncoding.value, valid[|valid| - 1]);
      && r.blinks == Some(n)
      && Accepted(m)
      && r.rows == rows + [Attendance(s.id, stamp, now, m.confidence.value)]
  {
    if uploads == 0 then Refuse(400, NoImages, rows)
    else if uploads < MinFrames then Refuse(400, TooFewFrames, rows)
    else if valid == [] then Refuse(400, NoValidImages, rows)
    else if n < RequiredBlinks then Refuse(400, InsufficientBlinks(n), rows)
    else Decide(rows, s, stamp, now, compareFaces(s.faceEncoding.value, valid[|valid| - 1]), Some(n))
  }

  /** `mark_attendance_enhanced`: the guard chain shared with
      `mark_attendance`, then the checks above on the uploaded frames. */
  function MarkAttendanceEnhanced(
    students: seq<Student>, rows: seq<Attendance>, identity: string, today: Date, stamp: Date, now: Time,
    images: seq<Upload>, eyesClosed: Bytes -> Option<bool>, compareFaces: (string, Bytes) -> FaceMatch): (r: MarkResult)
    ensures r.rows == rows || (r.reply.success && |r.rows| == |rows| + 1 && r.rows[..|rows|] == rows)
    ensures StudentGate(students, rows, identity, today).Stop? ==>
      r == StudentGate(students, rows, identity, today).result
    ensures StudentGate(students, rows, identity, today).Admit? ==>
      && (images == [] ==> r == Refuse(400, NoImages, rows))
      && (0 < |images| < MinFrames ==> r == Refuse(400, TooFewFrames, rows))
      && (|images| >= MinFrames && ValidFrames(images) == [] ==> r == Refuse(400, NoValidImages, rows))
    ensures var valid := ValidFrames(images);
            var n := BlinkCount(Observe(valid, eyesClosed));
            (StudentGate(students, rows, identity, today).Admit? && |images| >= MinFrames && valid != []
             && n < RequiredBlinks) ==> r == Refuse(400, InsufficientBlinks(n), rows)
    ensures var g := StudentGate(students, rows, identity, today);
            var valid := ValidFrames(images);
            (g.Admit? && |images| >= MinFrames && valid != []
             && BlinkCount(Observe(valid, eyesClosed)) >= RequiredBlinks)
            ==> (r.reply.success <==> Accepted(compareFaces(g.student.faceEncoding.value, valid[|valid| - 1])))
    ensures r.reply.success ==> StudentGate(students, rows, identity, today).Admit? && ValidFrames(images) != []
    ensures r.reply.success ==>
      var s := StudentGate(students, rows, identity, today).student;
      var valid := ValidFrames(images);
      var m := compareFaces(s.faceEncoding.value, valid[|valid| - 1]);
      && |images| >= MinFrames
      && r.blinks == Some(BlinkCount(Observe(valid, eyesClosed)))
      && r.blinks.value >= RequiredBlinks
      && Accepted(m)
      && r.rows == rows + [Attendance(s.id, stamp, now, m.confidence.value)]
  {
    match StudentGate(students, rows, identity, today)
    case Stop(refusal) => refusal
    case Admit(s) =>
      var valid := ValidFrames(images);
      EnhancedChecks(rows, s, stamp, now, |images|, valid, BlinkCount(Observe(valid, eyesClosed)), compareFaces)
  }

  /** An accepted enhanced request saw a face in at least three valid frames. */
  lemma EnhancedAcceptNeedsThreeFaces(
    students: seq<Student>, rows: seq<Attendance>, identity: string, today: Date, stamp: Date, now: Time,
    images: seq<Upload>, eyesClosed: Bytes -> Option<bool>, compareFaces: (string, Bytes) -> FaceMatch)
    requires MarkAttendanceEnhanced(students, rows, identity, today, stamp, now, images, eyesClosed, compareFaces).reply.success
    ensures |Considered(Observe(ValidFrames(images), eyesClosed))| >= 3
  {
    BlinkCountBounds(Observe(ValidFrames(images), eyesClosed));
  }

  /** The enhanced route, too, adds a second row for a student and day
      exactly when that student already has a row on the stamped date, and
      never when the two clocks agree. */
  lemma EnhancedKeepsOnePerDay(
    students: seq<Student>, rows: seq<Attendance>, identity: string, today: Date, stamp: Date, now: Time,
    images: seq<Upload>, eyesClosed: Bytes -> Option<bool>, compareFaces: (string, Bytes) -> FaceMatch)
    requires OnePerDay(rows)
    ensures var r := MarkAttendanceEnhanced(students, rows, identity, today, stamp, now, images, eyesClosed, compareFaces);
            r.rows == rows
            || (OnePerDay(r.rows) <==> CheckDuplicateAttendance(rows, r.rows[|rows|].studentId, stamp).None?)
    ensures stamp == today ==>
              OnePerDay(MarkAttendanceEnhanced(students, rows, identity, today, stamp, now, images, eyesClosed, compareFaces).rows)
  {
    var r := MarkAttendanceEnhanced(students, rows, identity, today, stamp, now, images, eyesClosed, compareFaces);
    if r.rows != rows {
      var a := r.rows[|rows|];
      assert r.rows == rows + [a];
      AppendKeepsOnePerDay(rows, a);
    }
  }
}

=== FILE: protected_route.dfy ===
/** ProtectedRoute.jsx: the student pages' guard.  On mount it checks the
    stored token once; until then it shows a loader. */
module ProtectedRoute {
  import opened Wrappers

  type Store = map<string, string>

  const TokenKey := "studentToken"
  const LoginPath := "/student-login"

  /** The decoded payload as far as the guard reads it: `exp` in seconds,
      absent when the token has none. */
  datatype Claims = Claims(exp: Option<int>)

  /** The outcome of `verifyToken`: the verdict and the store afterwards. */
  datatype Verdict = Verdict(authenticated: bool, store: Store)

  /** The token is present and not empty. */
  predicate HasToken(store: Store) {
    TokenKey in store && store[TokenKey] != ""
  }

  /** `exp * 1000 > Date.now()`; a missing `exp` gives NaN, which compares
      false. */
  predicate Unexpired(c: Claims, nowMillis: int) {
    c.exp.Some? && c.exp.value * 1000 > nowMillis
  }

  /** `verifyToken`.  `decode` stands for `jwtDecode`, `None` when it
      throws; `nowMillis` for `Date.now()`. */
  function VerifyToken(store: Store, decode: string -> Option<Claims>, nowMillis: int): (v: Verdict)
    ensures !HasToken(store) ==> v == Verdict(false, store)
    ensures HasToken(store) && decode(store[TokenKey]).None? ==> v == Verdict(false, store - {TokenKey})
    ensures HasToken(store) && decode(store[TokenKey]).Some? ==>
              v.authenticated == Unexpired(decode(store[TokenKey]).value, nowMillis)
    ensures v.authenticated ==> v.store == store
    ensures !v.authenticated && HasToken(store) ==> v.store == store - {TokenKey}
  {
    if !HasToken(store) then Verdict(false, store)
    else match decode(store[TokenKey])
      case None => Verdict(false, store - {TokenKey})
      case Some(claims) =>
        if Unexpired(claims, nowMillis) then Verdict(true, store)
        else Verdict(false, store - {TokenKey})
  }

  /** What the guard renders. */
  datatype View = Loader | Children | Redirect(to: string)

  /** The render choice for `isAuthenticated`, `None` before the check ran. */
  function Render(isAuthenticated: Option<bool>): (view: View)
    ensures isAuthenticated.None? <==> view == Loader
    ensures isAuthenticated == Some(true) <==> view == Children
    ensures isAuthenticated == Some(false) <==> view == Redirect(LoginPath)
  {
    match isAuthenticated
    case None => Loader
    case Some(true) => Children
    case Some(false) => Redirect(LoginPath)
  }

  /** A present token survives the check exactly when the student is let
      in. */
  lemma TokenSurvivesIffAuthenticated(store: Store, decode: string -> Option<Claims>, nowMillis: int)
    requires HasToken(store)
    ensures var v := VerifyToken(store, decode, nowMillis);
            TokenKey in v.store <==> v.authenticated
  {
  }

  /** A token expiring exactly now is expired: the comparison is strict. */
  lemma ExpiryBoundaryRejected(store: Store, decode: string -> Option<Claims>, exp: int)
    requires HasToken(store) && decode(store[TokenKey]) == Some(Claims(Some(exp)))
    ensures VerifyToken(store, decode, exp * 1000) == Verdict(false, store - {TokenKey})
  {
  }

  /** A token accepted at some instant is accepted at every earlier one. */
  lemma AcceptanceMonotone(store: Store, decode: string -> Option<Claims>, earlier: int, later: int)
    requires earlier <= later
    requires VerifyToken(store, decode, later).authenticated
    ensures VerifyToken(store, decode, earlier).authenticated
  {
  }

  /** The page a visitor finally sees: the children exactly when the check
      passes, the student login otherwise. */
  lemma GuardedView(store: Store, decode: string -> Option<Claims>, nowMillis: int)
    ensures var v := VerifyToken(store, decode, nowMillis);
            Render(Some(v.authenticated)) == (if v.authenticated then Children else Redirect(LoginPath))
            && (Render(Some(v.authenticated)) == Children ==> HasToken(store) && HasToken(v.store))
  {
  }
}

=== FILE: records.dfy ===
/** The student-record routes of app.py: self-registration
    (`register_student`), creation by an administrator (`create_student`) and
    update by an administrator (`update_student`).  A route takes the current
    `students` table and returns its reply together with the table after the
    request: unchanged unless the reply reports success.

    The duplicate checks compare the e-mail and roll number exactly as sent,
    while the row stores them normalised (e-mail lower-cased and stripped, roll
    number stripped).  Both columns are unique, so a request that slips past
    the checks only because of its form fails at the commit instead, with the
    route's generic 500 reply.  Under any collation that happens to a roll
    number with surrounding blanks and to an e-mail with a trailing newline,
    which `validate_email` accepts; a case variant of an e-mail slips past
    only under a case-sensitive (binary) collation. */
module Records {
  import opened Wrappers
  import opened Text
  import opened Schema
  import opened ServerHelpers
  import Marking

  /** A submitted form (`request.get_json()` or `request.form`) with string
      values. */
  type Form = map<string, string>

  /** The outcome of a record route. */
  datatype Outcome = Outcome(reply: Reply, students: seq<Student>)

  const MissingFields := "Missing required fields"
  const InvalidEmail := "Invalid email address"
  const EmailTaken := "Email already registered"
  const RollTaken := "Roll number already in use"
  const NoPhoto := "No photo uploaded"
  const NoSelectedFile := "No selected file"
  const InvalidFileType := "Invalid file type"
  const NoFace := "No face detected in image"
  const Registered := "Student registered successfully"
  const RegistrationFailed := "Registration failed"
  const Created := "Student created successfully"
  const CreationFailed := "Student creation failed"
  const Updated := "Student updated successfully"
  const UpdateFailed := "Failed to update student"

  /** The five fields registration and creation insist on. */
  predicate HasRequiredFields(data: Form) {
    "name" in data && "email" in data && "roll_number" in data && "course" in data && "password" in data
  }

  /** The stored form of an e-mail address. */
  function NormalEmail(e: string): string {
    Strip(Lower(e))
  }

  /** A `filter_by` on an exact e-mail or roll number finds a row. */
  predicate EmailInUse(students: seq<Student>, e: string) {
    exists k :: 0 <= k < |students| && students[k].email == e
  }

  predicate RollInUse(students: seq<Student>, roll: string) {
    exists k :: 0 <= k < |students| && students[k].rollNumber == roll
  }

  /** Inserting `s` would break a unique column. */
  predicate Collides(students: seq<Student>, s: Student) {
    EmailInUse(students, s.email) || RollInUse(students, s.rollNumber)
  }

  function Refuse(status: nat, message: string, students: seq<Student>): (o: Outcome)
    ensures !o.reply.success && o.students == students
  {
    Outcome(Reply(status, false, message), students)
  }

  /** `db.session.add` then `commit`: the insert either lands at the end of
      the table or is rolled back by the unique constraints. */
  function CommitInsert(students: seq<Student>, s: Student, ok: string, failed: string): (o: Outcome)
    ensures o.reply.success <==> !Collides(students, s)
    ensures o.reply.success ==> o.reply == Reply(201, true, ok) && o.students == students + [s]
    ensures !o.reply.success ==> o.reply == Reply(500, false, failed) && o.students == students
  {
    if Collides(students, s) then Refuse(500, failed, students)
    else Outcome(Reply(201, true, ok), students + [s])
  }

  /** The row built from a validated form. */
  function NewStudent(students: seq<Student>, data: Form, hash: string -> string,
                      photo: Option<string>, encoding: Option<string>): (s: Student)
    requires HasRequiredFields(data)
    ensures forall k :: 0 <= k < |students| ==> students[k].id != s.id
  {
    Student(NextId(students), Strip(data["name"]), NormalEmail(data["email"]),
            Strip(data["roll_number"]), data["course"], hash(data["password"]), photo, encoding)
  }

  /** The checks `register_student` and `create_student` share, in their
      order; `None` when the form passes all of them. */
  function CheckForm(students: seq<Student>, data: Form): (r: Option<Reply>)
    ensures r.Some? ==> !r.value.success
    ensures r.None? <==> HasRequiredFields(data) && ValidateEmail(data["email"])
                         && !EmailInUse(students, data["email"])
                         && !RollInUse(students, data["roll_number"])
  {
    if !HasRequiredFields(data) then Some(Reply(400, false, MissingFields))
    else if !ValidateEmail(data["email"]) then Some(Reply(400, false, InvalidEmail))
    else if EmailInUse(students, data["email"]) then Some(Reply(409, false, EmailTaken))
    else if RollInUse(students, data["roll_number"]) then Some(Reply(409, false, RollTaken))
    else None
  }

  /** `register_student`.  `body` is `None` when the request carries no JSON
      body or JSON `null`, which the route's `in` test turns into an
      exception. */
  function RegisterStudent(students: seq<Student>, body: Option<Form>, hash: string -> string): (o: Outcome)
    ensures o.students == students || (o.reply.success && |o.students| == |students| + 1
                                       && o.students[..|students|] == students)
    ensures body.None? ==> o == Refuse(500, RegistrationFailed, students)
    ensures body.Some? && !HasRequiredFields(body.value) ==> o == Refuse(400, MissingFields, students)
    ensures body.Some? && HasRequiredFields(body.value) && !ValidateEmail(body.value["email"])
            ==> o == Refuse(400, InvalidEmail, students)
    ensures body.Some? && HasRequiredFields(body.value) && ValidateEmail(body.value["email"])
            && EmailInUse(students, body.value["email"])
            ==> o == Refuse(409, EmailTaken, students)
    ensures body.Some? && HasRequiredFields(body.value) && ValidateEmail(body.value["email"])
            && !EmailInUse(students, body.value["email"]) && RollInUse(students, body.value["roll_number"])
            ==> o == Refuse(409, RollTaken, students)
    ensures o.reply.success ==>
              body.Some? && HasRequiredFields(body.value) && o.reply == Reply(201, true, Registered)
              && |o.students| == |students| + 1 && var s := o.students[|students|];
                 s.name == Strip(body.value["name"]) && s.email == NormalEmail(body.value["email"])
                 && s.rollNumber == Strip(body.value["roll_number"]) && s.course == body.value["course"]
                 && s.passwordHash == hash(body.value["password"])
                 && s.photoUrl.None? && s.faceEncoding.None?
                 && forall k :: 0 <= k < |students| ==> students[k].id != s.id
    ensures body.Some? && CheckForm(students, body.value).None? ==>
              (o.reply.success <==> !Collides(students, NewStudent(students, body.value, hash, None, None)))
  {
    match body
    case None => Refuse(500, RegistrationFailed, students)
    case Some(data) =>
      match CheckForm(students, data)
      case Some(reply) => Outcome(reply, students)
      case None =>
        CommitInsert(students, NewStudent(students, data, hash, None, None), Registered, RegistrationFailed)
  }

  /** `create_student`.  `photo` is the multipart `photo` part, `encode`
      stands for `generate_face_encoding` on the saved file and `storedName`
      for the name `generate_unique_filename` chooses for it. */
  function CreateStudent(students: seq<Student>, photo: Option<Upload>, data: Form,
                         encode: Bytes -> Option<string>, storedName: string,
                         hash: string -> string): (o: Outcome)
    ensures o.students == students || (o.reply.success && |o.students| == |students| + 1
                                       && o.students[..|students|] == students)
    ensures photo.None? ==> o == Refuse(400, NoPhoto, students)
    ensures photo.Some? && photo.value.filename == "" ==> o == Refuse(400, NoSelectedFile, students)
    ensures photo.Some? && photo.value.filename != "" && !AllowedFile(photo.value.filename)
            ==> o == Refuse(400, InvalidFileType, students)
    ensures photo.Some? && AllowedFile(photo.value.filename) && CheckForm(students, data).Some?
            ==> o == Outcome(CheckForm(students, data).value, students)
    ensures photo.Some? && AllowedFile(photo.value.filename) && CheckForm(students, data).None?
            && (encode(photo.value.content).None? || encode(photo.value.content).value == "")
            ==> o == Refuse(400, NoFace, students)
    ensures o.reply.success ==>
              photo.Some? && HasRequiredFields(data) && o.reply == Reply(201, true, Created)
              && |o.students| == |students| + 1 && var s := o.students[|students|];
                 s.name == Strip(data["name"]) && s.email == NormalEmail(data["email"])
                 && s.rollNumber == Strip(data["roll_number"]) && s.course == data["course"]
                 && s.passwordHash == hash(data["password"])
                 && s.photoUrl == Some(storedName) && s.faceEncoding == encode(photo.value.content)
                 && HasEncoding(s)
                 && forall k :: 0 <= k < |students| ==> students[k].id != s.id
    ensures photo.Some? && AllowedFile(photo.value.filename) && CheckForm(students, data).None?
            && encode(photo.value.content).Some? && encode(photo.value.content).value != "" ==>
              (o.reply.success
               <==> !Collides(students, NewStudent(students, data, hash, Some(storedName),
                                                   encode(photo.value.content))))
  {
    match photo
    case None => Refuse(400, NoPhoto, students)
    case Some(file) =>
      if file.filename == "" then Refuse(400, NoSelectedFile, students)
      else if !AllowedFile(file.filename) then Refuse(400, InvalidFileType, students)
      else match CheckForm(students, data)
        case Some(reply) => Outcome(reply, students)
        case None =>
          var encoding := encode(file.content);
          if encoding.None? || encoding.value == "" then Refuse(400, NoFace, students)
          else CommitInsert(students, NewStudent(students, data, hash, Some(storedName), encoding),
                            Created, CreationFailed)
  }

  /** The photo step of `update_student`: a part whose name is allowed
      replaces the photo and the encoding; `None` when no face is found. */
  function ReplacePhoto(s: Student, photo: Option<Upload>, encode: Bytes -> Option<string>,
                        storedName: string): (r: Option<Student>)
    ensures r.Some? ==> r.value == s || (HasEncoding(r.value) && r.value.photoUrl == Some(storedName))
    ensures r.Some? ==> r.value.(photoUrl := s.photoUrl, faceEncoding := s.faceEncoding) == s
    ensures (photo.None? || !AllowedFile(photo.value.filename)) ==> r == Some(s)
  {
    match photo
    case None => Some(s)
    case Some(file) =>
      // An empty name makes the part falsy; `allowed_file("")` is false too.
      if file.filename == "" || !AllowedFile(file.filename) then Some(s)
      else
        var encoding := encode(file.content);
        if encoding.None? || encoding.value == "" then None
        else Some(s.(photoUrl := Some(storedName), faceEncoding := encoding))
  }

  /** `data[field]` is present and differs from the stored `current`. */
  predicate Changes(data: Form, field: string, current: string) {
    field in data && data[field] != current
  }

  /** The field assignments of `update_student` after its checks passed. */
  function ApplyFields(s: Student, data: Form, hash: string -> string): (r: Student)
    ensures r.id == s.id && r.photoUrl == s.photoUrl && r.faceEncoding == s.faceEncoding
    ensures r.email == (if Changes(data, "email", s.email) then NormalEmail(data["email"]) else s.email)
    ensures r.rollNumber == (if Changes(data, "roll_number", s.rollNumber) then Strip(data["roll_number"])
                             else s.rollNumber)
    ensures r.name == (if "name" in data then Strip(data["name"]) else s.name)
    ensures r.course == (if "course" in data then data["course"] else s.course)
    ensures r.passwordHash == (if "password" in data && data["password"] != "" then hash(data["password"])
                               else s.passwordHash)
  {
    s.(email := if Changes(data, "email", s.email) then NormalEmail(data["email"]) else s.email,
       rollNumber := if Changes(data, "roll_number", s.rollNumber) then Strip(data["roll_number"])
                     else s.rollNumber,
       name := if "name" in data then Strip(data["name"]) else s.name,
       course := if "course" in data then data["course"] else s.course,
       passwordHash := if "password" in data && data["password"] != "" then hash(data["password"])
                       else s.passwordHash)
  }

  /** The field stage of `update_student` for the row at `k`, once the
      photo step produced `s`: the e-mail check, the roll check (after the
      session flushed the new e-mail), the assignments and the commit.  The
      roll query runs after the new e-mail was assigned, and the session
      flushes that assignment first: an e-mail that collides once
      normalised fails there, before the roll check. */
  function UpdateFields(students: seq<Student>, k: nat, s: Student, data: Form, hash: string -> string): (o: Outcome)
    requires k < |students|
    ensures !o.reply.success ==> o.students == students
    ensures Changes(data, "email", s.email) && EmailUsedByOther(students, data["email"], students[k].id)
            ==> o == Refuse(409, EmailTaken, students)
    ensures !(Changes(data, "email", s.email) && EmailUsedByOther(students, data["email"], students[k].id))
            && Changes(data, "roll_number", s.rollNumber)
            ==> var email := ApplyFields(s, data, hash).email;
                && (EmailUsedByOther(students, email, students[k].id) ==> o == Refuse(500, UpdateFailed, students))
                && (!EmailUsedByOther(students, email, students[k].id)
                    && RollUsedByOther(students, data["roll_number"], students[k].id)
                    ==> o == Refuse(409, RollTaken, students))
    ensures var u := ApplyFields(s, data, hash);
            !(Changes(data, "email", s.email) && EmailUsedByOther(students, data["email"], students[k].id))
            && !(Changes(data, "roll_number", s.rollNumber) && RollUsedByOther(students, data["roll_number"], students[k].id))
            && !EmailUsedByOther(students, u.email, students[k].id) && !RollUsedByOther(students, u.rollNumber, students[k].id)
            ==> o == Outcome(Reply(200, true, Updated), students[k := u])
    ensures o.reply.success ==>
              var u := ApplyFields(s, data, hash);
              && o == Outcome(Reply(200, true, Updated), students[k := u])
              && !EmailUsedByOther(students, u.email, students[k].id)
              && !RollUsedByOther(students, u.rollNumber, students[k].id)
  {
    var id := students[k].id;
    if Changes(data, "email", s.email) && EmailUsedByOther(students, data["email"], id) then
      Refuse(409, EmailTaken, students)
    else
      var email := if Changes(data, "email", s.email) then NormalEmail(data["email"]) else s.email;
      if Changes(data, "roll_number", s.rollNumber) && EmailUsedByOther(students, email, id) then
        Refuse(500, UpdateFailed, students)
      else if Changes(data, "roll_number", s.rollNumber) && RollUsedByOther(students, data["roll_number"], id) then
        Refuse(409, RollTaken, students)
      else
        var updated := ApplyFields(s, data, hash);
        if EmailUsedByOther(students, updated.email, id) || RollUsedByOther(students, updated.rollNumber, id) then
          Refuse(500, UpdateFailed, students)
        else
          Outcome(Reply(200, true, Updated), students[k := updated])
  }

  /** `update_student`.  The lookup of a missing id raises inside the route's
      `try`, so it is answered like any other failure, with 500; then the
      photo step, then the field stage above. */
  function UpdateStudent(students: seq<Student>, id: nat, photo: Option<Upload>, data: Form,
                         encode: Bytes -> Option<string>, storedName: string,
                         hash: string -> string): (o: Outcome)
    ensures !o.reply.success ==> o.students == students
    ensures o.reply.success ==> o.reply == Reply(200, true, Updated)
    ensures IndexOfId(students, id).None? ==> o == Refuse(500, UpdateFailed, students)
    ensures o.reply.success ==>
              IndexOfId(students, id).Some?
              && var k := IndexOfId(students, id).value;
                 |o.students| == |students|
                 && (forall j :: 0 <= j < |students| && j != k ==> o.students[j] == students[j])
                 && ReplacePhoto(students[k], photo, encode, storedName).Some?
                 && o.students[k] == ApplyFields(ReplacePhoto(students[k], photo, encode, storedName).value,
                                                 data, hash)
                 && !EmailUsedByOther(students, o.students[k].email, id)
                 && !RollUsedByOther(students, o.students[k].rollNumber, id)
    ensures IndexOfId(students, id).Some? ==>
              var k := IndexOfId(students, id).value;
              var p := ReplacePhoto(students[k], photo, encode, storedName);
              && (p.None? ==> o == Refuse(400, NoFace, students))
              && (p.Some? && Changes(data, "email", p.value.email) && EmailUsedByOther(students, data["email"], id)
                  ==> o == Refuse(409, EmailTaken, students))
    ensures IndexOfId(students, id).Some? ==>
              var k := IndexOfId(students, id).value;
              var p := ReplacePhoto(students[k], photo, encode, storedName);
              p.Some? && !(Changes(data, "email", p.value.email) && EmailUsedByOther(students, data["email"], id))
              && Changes(data, "roll_number", p.value.rollNumber)
              ==> var email := ApplyFields(p.value, data, hash).email;
                  && (EmailUsedByOther(students, email, id) ==> o == Refuse(500, UpdateFailed, students))
                  && (!EmailUsedByOther(students, email, id) && RollUsedByOther(students, data["roll_number"], id)
                      ==> o == Refuse(409, RollTaken, students))
    ensures IndexOfId(students, id).Some? ==>
              var k := IndexOfId(students, id).value;
              var p := ReplacePhoto(students[k], photo, encode, storedName);
              p.Some? ==>
                var u := ApplyFields(p.value, data, hash);
                !(Changes(data, "email", p.value.email) && EmailUsedByOther(students, data["email"], id))
                && !(Changes(data, "roll_number", p.value.rollNumber) && RollUsedByOther(students, data["roll_number"], id))
                && !EmailUsedByOther(students, u.email, id) && !RollUsedByOther(students, u.rollNumber, id)
                ==> o == Outcome(Reply(200, true, Updated), students[k := u])
  {
    match IndexOfId(students, id)
    case None => Refuse(500, UpdateFailed, students)
    case Some(k) =>
      match ReplacePhoto(students[k], photo, encode, storedName)
      case None => Refuse(400, NoFace, students)
      case Some(s) => UpdateFields(students, k, s, data, hash)
  }

  /** Appending a row that collides with no key keeps the keys unique. */
  lemma AppendKeepsKeysUnique(students: seq<Student>, s: Student)
    requires KeysUnique(students)
    requires !Collides(students, s)
    requires forall k :: 0 <= k < |students| ==> students[k].id != s.id
    ensures KeysUnique(students + [s])
  {
    var t := students + [s];
    forall i, j | 0 <= i < j < |t|
      ensures t[i].id != t[j].id && t[i].email != t[j].email && t[i].rollNumber != t[j].rollNumber
    {
      if j == |students| {
        assert t[i] == students[i] && t[j] == s;
      }
    }
  }

  /** Registration keeps the table's keys unique. */
  lemma RegisterKeepsKeysUnique(students: seq<Student>, body: Option<Form>, hash: string -> string)
    requires KeysUnique(students)
    ensures KeysUnique(RegisterStudent(students, body, hash).students)
  {
    var o := RegisterStudent(students, body, hash);
    if o.students != students {
      var data := body.value;
      AppendKeepsKeysUnique(students, NewStudent(students, data, hash, None, None));
    }
  }

  /** Creation keeps the table's keys unique. */
  lemma CreateKeepsKeysUnique(students: seq<Student>, photo: Option<Upload>, data: Form,
                              encode: Bytes -> Option<string>, storedName: string, hash: string -> string)
    requires KeysUnique(students)
    ensures KeysUnique(CreateStudent(students, photo, data, encode, storedName, hash).students)
  {
    var o := CreateStudent(students, photo, data, encode, storedName, hash);
    if o.students != students {
      AppendKeepsKeysUnique(students, NewStudent(students, data, hash, Some(storedName), encode(photo.value.content)));
    }
  }

  /** An update keeps the table's keys unique: the changed row keeps its id
      and collides with no other row. */
  lemma UpdateKeepsKeysUnique(students: seq<Student>, id: nat, photo: Option<Upload>, data: Form,
                              encode: Bytes -> Option<string>, storedName: string, hash: string -> string)
    requires KeysUnique(students)
    ensures KeysUnique(UpdateStudent(students, id, photo, data, encode, storedName, hash).students)
  {
    var o := UpdateStudent(students, id, photo, data, encode, storedName, hash);
    if o.reply.success {
      var k := IndexOfId(students, id).value;
      var t := o.students;
      forall i, j | 0 <= i < j < |t|
        ensures t[i].id != t[j].id && t[i].email != t[j].email && t[i].rollNumber != t[j].rollNumber
      {
        if i == k {
          assert students[j].id != id;
        } else if j == k {
          assert students[i].id != id;
        }
      }
    }
  }

  /** The duplicate check looks at the address as typed: an address whose
      normalised form is taken but which is not stored as typed (a trailing
      newline; a case variant under a case-sensitive collation) passes the
      409 check and is then refused by the unique constraint, with the
      generic 500 reply. */
  lemma RawEmailCheckMisses(students: seq<Student>, data: Form, hash: string -> string)
    requires HasRequiredFields(data) && ValidateEmail(data["email"])
    requires !EmailInUse(students, data["email"]) && !RollInUse(students, data["roll_number"])
    requires EmailInUse(students, NormalEmail(data["email"]))
    ensures RegisterStudent(students, Some(data), hash) == Refuse(500, RegistrationFailed, students)
  {
    assert Collides(students, NewStudent(students, data, hash, None, None));
  }

  /** The same mismatch for the roll number on creation. */
  lemma RawRollCheckMisses(students: seq<Student>, photo: Upload, data: Form,
                           encode: Bytes -> Option<string>, storedName: string, hash: string -> string)
    requires AllowedFile(photo.filename) && CheckForm(students, data).None?
    requires encode(photo.content).Some? && encode(photo.content).value != ""
    requires RollInUse(students, Strip(data["roll_number"]))
    ensures CreateStudent(students, Some(photo), data, encode, storedName, hash)
            == Refuse(500, CreationFailed, students)
  {
    assert Collides(students, NewStudent(students, data, hash, Some(storedName), encode(photo.content)));
  }

  /** An update without photo that changes neither the e-mail nor the roll
      number succeeds and rewrites only the student's own row. */
  lemma QuietUpdateSucceeds(students: seq<Student>, k: nat, data: Form, encode: Bytes -> Option<string>,
                            storedName: string, hash: string -> string)
    requires KeysUnique(students) && k < |students|
    requires !Changes(data, "email", students[k].email) && !Changes(data, "roll_number", students[k].rollNumber)
    ensures UpdateStudent(students, students[k].id, None, data, encode, storedName, hash)
            == Outcome(Reply(200, true, Updated), students[k := ApplyFields(students[k], data, hash)])
  {
    var s := students[k];
    IndexOfIdUnique(students, k);
    assert ReplacePhoto(s, None, encode, storedName) == Some(s);
    var updated := ApplyFields(s, data, hash);
    assert updated.email == s.email && updated.rollNumber == s.rollNumber;
    OwnKeysFree(students, k);
  }

  /** An update without photo whose fields leave the row as it is succeeds
      and changes no row. */
  lemma NoOpUpdateSucceeds(students: seq<Student>, k: nat, data: Form, encode: Bytes -> Option<string>,
                           storedName: string, hash: string -> string)
    requires KeysUnique(students) && k < |students|
    requires !Changes(data, "email", students[k].email) && !Changes(data, "roll_number", students[k].rollNumber)
    requires ApplyFields(students[k], data, hash) == students[k]
    ensures UpdateStudent(students, students[k].id, None, data, encode, storedName, hash)
            == Outcome(Reply(200, true, Updated), students)
  {
    QuietUpdateSucceeds(students, k, data, encode, storedName, hash);
    assert students[k := students[k]] == students;
  }

  /** Re-submitting a student's stored fields unchanged, with a blank password
      and no photo, as the edit form does, succeeds and changes nothing: the
      student's own e-mail and roll number are not counted as taken. */
  lemma UnchangedEditSucceeds(students: seq<Student>, k: nat, data: Form, encode: Bytes -> Option<string>,
                              storedName: string, hash: string -> string)
    requires KeysUnique(students) && k < |students|
    requires Strip(students[k].name) == students[k].name
    requires data == map["name" := students[k].name, "email" := students[k].email,
                         "roll_number" := students[k].rollNumber, "course" := students[k].course,
                         "password" := ""]
    ensures UpdateStudent(students, students[k].id, None, data, encode, storedName, hash)
            == Outcome(Reply(200, true, Updated), students)
  {
    OwnFieldsChangeNothing(students[k], data, hash);
    NoOpUpdateSucceeds(students, k, data, encode, storedName, hash);
  }

  /** A form holding a row's own fields, with a blank password, changes
      nothing in it. */
  lemma OwnFieldsChangeNothing(s: Student, data: Form, hash: string -> string)
    requires data == map["name" := s.name, "email" := s.email, "roll_number" := s.rollNumber,
                         "course" := s.course, "password" := ""]
    requires Strip(s.name) == s.name
    ensures !Changes(data, "email", s.email) && !Changes(data, "roll_number", s.rollNumber)
    ensures ApplyFields(s, data, hash) == s
  {
    assert data["email"] == s.email && data["roll_number"] == s.rollNumber;
    assert data["name"] == s.name && data["course"] == s.course && data["password"] == "";
  }

  /** An update request without photo and without form fields is answered
      with success and changes no row. */
  lemma EmptyUpdateChangesNothing(students: seq<Student>, k: nat, encode: Bytes -> Option<string>,
                                  storedName: string, hash: string -> string)
    requires KeysUnique(students) && k < |students|
    ensures UpdateStudent(students, students[k].id, None, map[], encode, storedName, hash)
            == Outcome(Reply(200, true, Updated), students)
  {
    assert ApplyFields(students[k], map[], hash) == students[k];
    NoOpUpdateSucceeds(students, k, map[], encode, storedName, hash);
  }

  /** An accepted update without photo stores the submitted name and course,
      and the password when one is supplied, in the student's own row, and
      leaves every other row as it was. */
  lemma UpdateStoresFields(students: seq<Student>, k: nat, data: Form, encode: Bytes -> Option<string>,
                           storedName: string, hash: string -> string)
    requires KeysUnique(students) && k < |students|
    requires "name" in data && "course" in data && "password" in data
    ensures var o := UpdateStudent(students, students[k].id, None, data, encode, storedName, hash);
            o.reply.success ==>
              o.students[k].name == Strip(data["name"]) && o.students[k].course == data["course"]
              && (data["password"] != "" ==> o.students[k].passwordHash == hash(data["password"]))
              && (forall j :: 0 <= j < |students| && j != k ==> o.students[j] == students[j])
  {
    var o := UpdateStudent(students, students[k].id, None, data, encode, storedName, hash);
    if o.reply.success {
      IndexOfIdUnique(students, k);
      assert ReplacePhoto(students[k], None, encode, storedName) == Some(students[k]);
      assert o.students[k] == ApplyFields(students[k], data, hash);
    }
  }

  /** With unique keys, a student's own e-mail and roll number are held by no
      other student. */
  lemma OwnKeysFree(students: seq<Student>, k: nat)
    requires KeysUnique(students) && k < |students|
    ensures !EmailUsedByOther(students, students[k].email, students[k].id)
    ensures !RollUsedByOther(students, students[k].rollNumber, students[k].id)
  {
    var s := students[k];
    forall j | 0 <= j < |students| && students[j].id != s.id
      ensures students[j].email != s.email && students[j].rollNumber != s.rollNumber
    {
      assert j != k;
    }
  }

  /** With unique ids, the lookup by id finds the row that holds it. */
  lemma IndexOfIdUnique(students: seq<Student>, k: nat)
    requires KeysUnique(students) && k < |students|
    ensures IndexOfId(students, students[k].id) == Some(k)
  {
    IndexOfIdIs(students, students[k].id, k);
  }

  /** The first row holding `id` is the one the lookup finds. */
  lemma {:induction false} IndexOfIdIs(students: seq<Student>, id: nat, k: nat)
    requires k < |students| && students[k].id == id
    requires forall j :: 0 <= j < k ==> students[j].id != id
    ensures IndexOfId(students, id) == Some(k)
  {
    if k > 0 {
      assert students[0].id != id;
      IndexOfIdIs(students[1..], id, k - 1);
    }
  }

  /** A student just created by an administrator passes every gate of
      attendance marking, provided the attendance table refers only to
      students already present (its foreign key). */
  lemma CreatedStudentCanMark(students: seq<Student>, photo: Option<Upload>, data: Form,
                              encode: Bytes -> Option<string>, storedName: string, hash: string -> string,
                              rows: seq<Attendance>, today: Date)
    requires forall r :: 0 <= r < |rows| ==> exists k :: 0 <= k < |students| && students[k].id == rows[r].studentId
    requires CreateStudent(students, photo, data, encode, storedName, hash).reply.success
    ensures var o := CreateStudent(students, photo, data, encode, storedName, hash);
            var s := o.students[|students|];
            Marking.StudentGate(o.students, rows, s.email, today) == Marking.Admit(s)
  {
    var o := CreateStudent(students, photo, data, encode, storedName, hash);
    var s := o.students[|students|];
    assert !Collides(students, s);
    FindAppended(students, s);
    forall r | 0 <= r < |rows| ensures rows[r].studentId != s.id {
      var k :| 0 <= k < |students| && students[k].id == rows[r].studentId;
    }
  }

  /** A row whose e-mail no earlier row has is what the lookup finds. */
  lemma {:induction false} FindAppended(students: seq<Student>, s: Student)
    requires !EmailInUse(students, s.email)
    ensures FindByEmail(students + [s], s.email) == Some(s)
  {
    if students != [] {
      assert (students + [s])[1..] == students[1..] + [s];
      assert !EmailInUse(students[1..], s.email) by {
        forall k | 0 <= k < |students[1..]| ensures students[1..][k].email != s.email {
          assert students[1..][k] == students[k + 1];
        }
      }
      FindAppended(students[1..], s);
    }
  }
}

=== FILE: reports.dfy ===
/** `get_attendance_reports` of app.py: the attendance table joined with the
    students table, narrowed by the optional query filters and listed newest
    first. */
module Reports {
  import opened Wrappers
  import opened Text
  import opened Schema

  /** An attendance row paired with its student by the inner join. */
  datatype Joined = Joined(att: Attendance, student: Student)

  /** The four query parameters, each stripped; "" means "no filter". */
  datatype Criteria = Criteria(name: string, roll: string, date: string, course: string)

  /** One entry of the `reports` list. */
  datatype ReportRow = ReportRow(date: string, time: string, confidence: real, student: Student)

  /** The reply: the entries, the filters echoed back and their count. */
  datatype Response = Response(reports: seq<ReportRow>, filters: Criteria, count: nat)

  /** `request.args.get(key, '').strip()`. */
  function Arg(args: map<string, string>, key: string): (v: string)
    ensures key !in args ==> v == ""
    ensures key in args ==> v == Strip(args[key])
  {
    if key in args then Strip(args[key]) else ""
  }

  function ReadCriteria(args: map<string, string>): Criteria {
    Criteria(Arg(args, "student_name"), Arg(args, "roll_number"), Arg(args, "date"), Arg(args, "course"))
  }

  /** `column.ilike('%pattern%')`: a case-insensitive substring test. */
  predicate ILikeInfix(pattern: string, value: string) {
    IsInfix(Lower(pattern), Lower(value))
  }

  /** The row passes every filter that is set. */
  predicate Keeps(c: Criteria, j: Joined) {
    (c.name == "" || ILikeInfix(c.name, j.student.name))
    && (c.roll == "" || ILikeInfix(c.roll, j.student.rollNumber))
    && (c.date == "" || DateText(j.att.date) == c.date)
    && (c.course == "" || j.student.course == c.course)
  }

  /** The join partners of one attendance row, in table order. */
  function JoinRow(a: Attendance, students: seq<Student>): (r: seq<Joined>)
    ensures forall j :: j in r <==> j.att == a && j.student in students && a.studentId == j.student.id
  {
    if students == [] then []
    else (if students[0].id == a.studentId then [Joined(a, students[0])] else [])
         + JoinRow(a, students[1..])
  }

  /** `query(Attendance, Student).join(Student, Attendance.student_id == Student.id)`. */
  function InnerJoin(rows: seq<Attendance>, students: seq<Student>): (r: seq<Joined>)
    ensures forall j :: j in r <==> j.att in rows && j.student in students && j.att.studentId == j.student.id
  {
    if rows == [] then [] else JoinRow(rows[0], students) + InnerJoin(rows[1..], students)
  }

  /** The `filter` calls, applied only for the criteria that are set. */
  function Filter(js: seq<Joined>, c: Criteria): (r: seq<Joined>)
    ensures |r| <= |js|
    ensures forall j :: j in r <==> j in js && Keeps(c, j)
    ensures forall k :: 0 <= k < |r| ==> Keeps(c, r[k])
  {
    if js == [] then []
    else (if Keeps(c, js[0]) then [js[0]] else []) + Filter(js[1..], c)
  }

  /** `x` is listed no later than `y` under `order_by(date.desc(), time.desc())`. */
  predicate NotOlder(x: Joined, y: Joined) {
    DateLe(y.att.date, x.att.date) && (x.att.date == y.att.date ==> TimeLe(y.att.time, x.att.time))
  }

  ghost predicate Newest(js: seq<Joined>) {
    forall i, k :: 0 <= i < k < |js| ==> NotOlder(js[i], js[k])
  }

  lemma NotOlderTotal(x: Joined, y: Joined)
    ensures NotOlder(x, y) || NotOlder(y, x)
  {
  }

  lemma NotOlderTransitive(x: Joined, y: Joined, z: Joined)
    requires NotOlder(x, y) && NotOlder(y, z)
    ensures NotOlder(x, z)
  {
  }

  /** Insert `x` before the first entry it is newer than. */
  function Insert(x: Joined, js: seq<Joined>): (r: seq<Joined>)
    requires Newest(js)
    ensures multiset(r) == multiset(js) + multiset{x}
    ensures Newest(r)
  {
    if js == [] then [x]
    else if NotOlder(x, js[0]) then
      InsertFront(x, js);
      [x] + js
    else
      NotOlderTotal(x, js[0]);
      var rest := Insert(x, js[1..]);
      InsertBehind(js[0], rest, x, js[1..]);
      assert js == [js[0]] + js[1..];
      [js[0]] + rest
  }

  lemma InsertFront(x: Joined, js: seq<Joined>)
    requires Newest(js) && js != [] && NotOlder(x, js[0])
    ensures Newest([x] + js)
  {
    var r := [x] + js;
    forall i, k | 0 <= i < k < |r| ensures NotOlder(r[i], r[k]) {
      if i == 0 {
        NotOlderTransitive(x, js[0], js[k - 1]);
      } else {
        assert r[i] == js[i - 1] && r[k] == js[k - 1];
      }
    }
  }

  lemma InsertBehind(h: Joined, rest: seq<Joined>, x: Joined, tail: seq<Joined>)
    requires Newest(rest) && NotOlder(h, x)
    requires forall k :: 0 <= k < |tail| ==> NotOlder(h, tail[k])
    requires multiset(rest) == multiset(tail) + multiset{x}
    ensures Newest([h] + rest)
  {
    forall k | 0 <= k < |rest| ensures NotOlder(h, rest[k]) {
      assert rest[k] in multiset(rest);
      if rest[k] != x {
        assert rest[k] in multiset(tail);
      }
    }
  }

  /** The `order_by`: rows of equal date and time may come in any order in
      the source; this model keeps their join order. */
  function SortNewest(js: seq<Joined>): (r: seq<Joined>)
    ensures multiset(r) == multiset(js)
    ensures Newest(r)
  {
    if js == [] then []
    else
      assert js == [js[0]] + js[1..];
      Insert(js[0], SortNewest(js[1..]))
  }

  /** The joined, filtered and ordered rows of the report. */
  function ReportRows(rows: seq<Attendance>, students: seq<Student>, c: Criteria): (r: seq<Joined>)
    ensures Newest(r)
    ensures multiset(r) == multiset(Filter(InnerJoin(rows, students), c))
  {
    SortNewest(Filter(InnerJoin(rows, students), c))
  }

  /** One entry: date and time in their `strftime` forms. */
  function Render(j: Joined): ReportRow {
    ReportRow(DateText(j.att.date), TimeText(j.att.time), j.att.confidence, j.student)
  }

  /** `get_attendance_reports`. */
  function AttendanceReports(rows: seq<Attendance>, students: seq<Student>, args: map<string, string>): (resp: Response)
    ensures resp.filters == ReadCriteria(args) && resp.count == |resp.reports|
    ensures var r := ReportRows(rows, students, ReadCriteria(args));
            |resp.reports| == |r| && forall k :: 0 <= k < |r| ==> resp.reports[k] == Render(r[k])
  {
    var c := ReadCriteria(args);
    var r := ReportRows(rows, students, c);
    Response(seq(|r|, k requires 0 <= k < |r| => Render(r[k])), c, |r|)
  }

  /** A pair appears in the report exactly when the attendance row belongs
      to that student and passes every filter that is set. */
  lemma ReportMembership(rows: seq<Attendance>, students: seq<Student>, c: Criteria, j: Joined)
    ensures j in ReportRows(rows, students, c)
            <==> j.att in rows && j.student in students && j.att.studentId == j.student.id && Keeps(c, j)
  {
    var f := Filter(InnerJoin(rows, students), c);
    var r := ReportRows(rows, students, c);
    assert j in r <==> j in multiset(r);
    assert j in f <==> j in multiset(f);
  }

  /** Without query parameters the report lists every joined row. */
  lemma NoFiltersKeepAll(rows: seq<Attendance>, students: seq<Student>)
    ensures multiset(ReportRows(rows, students, ReadCriteria(map[]))) == multiset(InnerJoin(rows, students))
  {
    FilterNothing(InnerJoin(rows, students));
  }

  lemma {:induction false} FilterNothing(js: seq<Joined>)
    ensures Filter(js, Criteria("", "", "", "")) == js
  {
    if js != [] {
      FilterNothing(js[1..]);
    }
  }

  /** An attendance row with no student has no join partner. */
  lemma {:induction false} JoinRowNone(a: Attendance, students: seq<Student>)
    requires forall k :: 0 <= k < |students| ==> students[k].id != a.studentId
    ensures JoinRow(a, students) == []
  {
    if students != [] {
      JoinRowNone(a, students[1..]);
    }
  }

  /** With unique student ids, a row whose student exists has exactly one
      join partner. */
  lemma {:induction false} JoinRowOne(a: Attendance, students: seq<Student>)
    requires KeysUnique(students)
    requires exists k :: 0 <= k < |students| && students[k].id == a.studentId
    ensures |JoinRow(a, students)| == 1
  {
    var tail := students[1..];
    assert KeysUnique(tail) by {
      forall i, j | 0 <= i < j < |tail| ensures tail[i].id != tail[j].id {
        assert tail[i] == students[i + 1] && tail[j] == students[j + 1];
      }
    }
    if students[0].id == a.studentId {
      forall k | 0 <= k < |tail| ensures tail[k].id != a.studentId {
        assert tail[k] == students[k + 1];
      }
      JoinRowNone(a, tail);
    } else {
      var k :| 0 <= k < |students| && students[k].id == a.studentId;
      assert tail[k - 1] == students[k];
      JoinRowOne(a, tail);
    }
  }

  /** Every attendance row refers to an existing student: the foreign key
      on `student_id`. */
  ghost predicate RowsReferToStudents(rows: seq<Attendance>, students: seq<Student>) {
    forall r :: 0 <= r < |rows| ==> exists k :: 0 <= k < |students| && students[k].id == rows[r].studentId
  }

  /** When every attendance row refers to an existing student (the foreign
      key) and student ids are unique, the join keeps every attendance row
      once. */
  lemma {:induction false} JoinKeepsEveryRow(rows: seq<Attendance>, students: seq<Student>)
    requires KeysUnique(students)
    requires RowsReferToStudents(rows, students)
    ensures |InnerJoin(rows, students)| == |rows|
  {
    if rows != [] {
      var rest := rows[1..];
      JoinRowOne(rows[0], students);
      assert forall r :: 0 <= r < |rest| ==> rest[r] == rows[r + 1];
      assert RowsReferToStudents(rest, students);
      JoinKeepsEveryRow(rest, students);
      assert InnerJoin(rows, students) == JoinRow(rows[0], students) + InnerJoin(rest, students);
    }
  }

  /** Under the same conditions the unfiltered report lists each attendance
      row exactly once. */
  lemma EveryRowReportedOnce(rows: seq<Attendance>, students: seq<Student>)
    requires KeysUnique(students)
    requires RowsReferToStudents(rows, students)
    ensures |InnerJoin(rows, students)| == |rows|
    ensures AttendanceReports(rows, students, map[]).count == |rows|
  {
    JoinKeepsEveryRow(rows, students);
    NoFiltersKeepAll(rows, students);
    var r := ReportRows(rows, students, ReadCriteria(map[]));
    assert |r| == |multiset(r)| == |multiset(InnerJoin(rows, students))|;
  }

  /** Whitespace of any kind and length around a parameter does not change
      the filters the report applies. */
  lemma PaddedArgumentSame(args: map<string, string>, key: string, before: string, v: string, after: string)
    requires key in args && args[key] == before + v + after
    requires All(before, PyIsSpace) && All(after, PyIsSpace)
    ensures ReadCriteria(args) == ReadCriteria(args[key := v])
  {
    StripPadded(before, v, after);
    var padded := args[key := v];
    assert Arg(args, key) == Arg(padded, key);
    forall other | other != key ensures Arg(args, other) == Arg(padded, other) {
      assert (other in args) == (other in padded);
    }
  }

  /** Stripping ignores any whitespace added on either side. */
  lemma StripPadded(before: string, v: string, after: string)
    requires All(before, PyIsSpace) && All(after, PyIsSpace)
    ensures Strip(before + v + after) == Strip(v)
  {
    assert before + v + after == before + (v + after);
    LStripSpaces(before, v + after);
    LStripAppend(v, after);
    if LStrip(v) == [] {
      LStripSpaces(after, []);
      assert after + [] == after;
    } else {
      RStripSpaces(LStrip(v), after);
    }
  }

  lemma {:induction false} LStripSpaces(before: string, s: string)
    requires All(before, PyIsSpace)
    ensures LStrip(before + s) == LStrip(s)
    decreases |before|
  {
    if before == [] {
      assert before + s == s;
    } else {
      var t := before + s;
      assert t[0] == before[0] && t[1..] == before[1..] + s;
      assert All(before[1..], PyIsSpace) by {
        forall k | 0 <= k < |before[1..]| ensures PyIsSpace(before[1..][k]) {
          assert before[1..][k] == before[k + 1];
        }
      }
      LStripSpaces(before[1..], s);
    }
  }

  lemma {:induction false} RStripSpaces(s: string, after: string)
    requires All(after, PyIsSpace)
    ensures RStrip(s + after) == RStrip(s)
    decreases |after|
  {
    if after == [] {
      assert s + after == s;
    } else {
      var t := s + after;
      var shorter := after[..|after| - 1];
      assert t[|t| - 1] == after[|after| - 1] && t[..|t| - 1] == s + shorter;
      assert All(shorter, PyIsSpace) by {
        forall k | 0 <= k < |shorter| ensures PyIsSpace(shorter[k]) {
          assert shorter[k] == after[k];
        }
      }
      RStripSpaces(s, shorter);
    }
  }

  lemma {:induction false} LStripAppend(v: string, t: string)
    ensures LStrip(v + t) == (if LStrip(v) == [] then LStrip(t) else LStrip(v) + t)
  {
    if v == [] {
      assert v + t == t;
    } else if PyIsSpace(v[0]) {
      assert (v + t)[0] == v[0];
      assert (v + t)[1..] == v[1..] + t;
      assert LStrip(v + t) == LStrip(v[1..] + t);
      assert LStrip(v) == LStrip(v[1..]);
      LStripAppend(v[1..], t);
    } else {
      assert (v + t)[0] == v[0];
      assert LStrip(v + t) == v + t;
      assert LStrip(v) == v;
    }
  }
}

=== FILE: schema.dfy ===
/** The server's persistent entities (the `Student` and `Attendance` tables of
    app.py) and the lookups the routes perform on them.  A table is a
    sequence of rows in insertion order; `first()` is the earliest match. */
module Schema {
  import opened Wrappers
  import Text

  type Bytes = seq<bv8>

  /** An uploaded file: its client-side name and its bytes. */
  datatype Upload = Upload(filename: string, content: Bytes)

  /** The HTTP status and the `success`/`message` fields of a JSON reply. */
  datatype Reply = Reply(status: nat, success: bool, message: string)

  /** A calendar date as stored in a `Date` column. */
  datatype Date = Date(year: nat, month: nat, day: nat)

  /** A time of day as stored in a `Time` column. */
  datatype Time = Time(hour: nat, minute: nat, second: nat)

  /** `strftime('%Y-%m-%d')`. */
  function DateText(d: Date): string {
    Text.ZeroPad(d.year, 4) + "-" + Text.ZeroPad(d.month, 2) + "-" + Text.ZeroPad(d.day, 2)
  }

  /** `strftime('%H:%M:%S')`. */
  function TimeText(t: Time): string {
    Text.ZeroPad(t.hour, 2) + ":" + Text.ZeroPad(t.minute, 2) + ":" + Text.ZeroPad(t.second, 2)
  }

  /** Chronological order on dates. */
  predicate DateLe(a: Date, b: Date) {
    a.year < b.year
    || (a.year == b.year && (a.month < b.month || (a.month == b.month && a.day <= b.day)))
  }

  /** Chronological order on times of day. */
  predicate TimeLe(a: Time, b: Time) {
    a.hour < b.hour
    || (a.hour == b.hour && (a.minute < b.minute || (a.minute == b.minute && a.second <= b.second)))
  }

  /** A row of the `students` table.  The password column holds a hash; the
      photo and the face encoding are nullable. */
  datatype Student = Student(
    id: nat,
    name: string,
    email: string,
    rollNumber: string,
    course: string,
    passwordHash: string,
    photoUrl: Option<string>,
    faceEncoding: Option<string>)

  /** A row of the `attendance` table. */
  datatype Attendance = Attendance(studentId: nat, date: Date, time: Time, confidence: real)

  /** `not student.face_encoding` is false: a stored, non-empty encoding. */
  predicate HasEncoding(s: Student) {
    s.faceEncoding.Some? && s.faceEncoding.value != ""
  }

  /** `Student.query.filter_by(email=e).first()`. */
  function FindByEmail(students: seq<Student>, e: string): (r: Option<Student>)
    ensures r.None? <==> forall k :: 0 <= k < |students| ==> students[k].email != e
    ensures r.Some? ==> r.value in students && r.value.email == e
  {
    if students == [] then None
    else if students[0].email == e then Some(students[0])
    else FindByEmail(students[1..], e)
  }

  /** `Student.query.get(id)`: position of the row with primary key `id`. */
  function IndexOfId(students: seq<Student>, id: nat): (r: Option<nat>)
    ensures r.None? <==> forall k :: 0 <= k < |students| ==> students[k].id != id
    ensures r.Some? ==> r.value < |students| && students[r.value].id == id
  {
    if students == [] then None
    else if students[0].id == id then Some(0)
    else match IndexOfId(students[1..], id)
      case None => None
      case Some(k) => Some(k + 1)
  }

  /** Some student other than the one with key `self` has this email. */
  predicate EmailUsedByOther(students: seq<Student>, e: string, self: nat) {
    exists k :: 0 <= k < |students| && students[k].id != self && students[k].email == e
  }

  /** Some student other than the one with key `self` has this roll number. */
  predicate RollUsedByOther(students: seq<Student>, roll: string, self: nat) {
    exists k :: 0 <= k < |students| && students[k].id != self && students[k].rollNumber == roll
  }

  /** The table's key constraints: `id` is the primary key, `email` and
      `roll_number` are declared `unique=True`. */
  ghost predicate KeysUnique(students: seq<Student>) {
    forall i, j :: 0 <= i < j < |students| ==>
      students[i].id != students[j].id
      && students[i].email != students[j].email
      && students[i].rollNumber != students[j].rollNumber
  }

  /** The key an auto-increment column hands out next: above every key in use. */
  function NextId(students: seq<Student>): (id: nat)
    ensures forall k :: 0 <= k < |students| ==> students[k].id < id
  {
    if students == [] then 1
    else
      var rest := NextId(students[1..]);
      if students[0].id < rest then rest else students[0].id + 1
  }
}

=== FILE: server_helpers.dfy ===
/** The two string predicates of app.py's helper section: the upload-name
    check `allowed_file` and the server-side e-mail check `validate_email`. */
module ServerHelpers {
  import opened Wrappers
  import opened Text

  /** `ALLOWED_EXTENSIONS` of the application configuration. */
  const AllowedExtensions: set<string> := {"png", "jpg", "jpeg", "gif"}

  /** Position `i` holds the last '.' of `name`. */
  predicate IsFinalDot(name: string, i: nat)
    requires i < |name|
  {
    name[i] == '.' && forall k :: i < k < |name| ==> name[k] != '.'
  }

  /** `allowed_file`: the name has a '.', and the text after its last '.',
      lower-cased, is an allowed extension. */
  predicate AllowedFile(name: string) {
    match LastIndexOf(name, '.')
    case None => false
    case Some(j) => Lower(name[j + 1..]) in AllowedExtensions
  }

  /** `allowed_file` accepts exactly the names whose final dot is followed
      by an allowed extension, in any letter case. */
  lemma AllowedFileMeaning(name: string)
    ensures AllowedFile(name) <==> exists i :: 0 <= i < |name| && IsFinalDot(name, i)
                                              && Lower(name[i + 1..]) in AllowedExtensions
  {
    match LastIndexOf(name, '.')
    case None =>
    case Some(j) =>
      assert IsFinalDot(name, j);
      forall i | 0 <= i < |name| && IsFinalDot(name, i) ensures i == j {
        LastIndexOfIs(name, '.', i);
      }
  }

  /** Only the final extension decides: `stem.ext` is accepted exactly when
      `ext` (which has no dot) is allowed, whatever dots `stem` contains. */
  lemma OnlyFinalExtensionCounts(stem: string, ext: string)
    requires '.' !in ext
    ensures AllowedFile(stem + "." + ext) <==> Lower(ext) in AllowedExtensions
  {
    var name := stem + "." + ext;
    var i := |stem|;
    assert name[i + 1..] == ext;
    forall k | i < k < |name| ensures name[k] != '.' {
      assert name[k] == ext[k - i - 1];
    }
    assert IsFinalDot(name, i);
    AllowedFileMeaning(name);
  }

  /** A name without any dot is refused. */
  lemma NoDotRefused(name: string)
    requires '.' !in name
    ensures !AllowedFile(name)
  {
  }

  /** Python's `\w` on ASCII: letters, digits and '_'. */
  predicate IsWordChar(c: char) {
    'a' <= c <= 'z' || 'A' <= c <= 'Z' || '0' <= c <= '9' || c == '_'
  }

  /** The class `[\w\.-]`. */
  predicate IsEmailChar(c: char) {
    IsWordChar(c) || c == '.' || c == '-'
  }

  /** The regular expression `[\w\.-]+@[\w\.-]+\.\w+` matches the whole of
      `s`: a local part, '@', a domain, '.', and a word-only final label. */
  ghost predicate MatchesEmailPattern(s: string) {
    exists i, j :: 0 < i && i + 1 < j && j + 1 < |s| && s[i] == '@' && s[j] == '.'
      && All(s[..i], IsEmailChar) && All(s[i + 1..j], IsEmailChar) && All(s[j + 1..], IsWordChar)
  }

  /** Decides the pattern by locating the first '@' and the last '.'. */
  predicate EmailShape(s: string) {
    match IndexOf(s, '@')
    case None => false
    case Some(i) =>
      match LastIndexOf(s, '.')
      case None => false
      case Some(j) =>
        0 < i && i + 1 < j && j + 1 < |s|
        && All(s[..i], IsEmailChar) && All(s[i + 1..j], IsEmailChar) && All(s[j + 1..], IsWordChar)
  }

  /** The split at the first '@' and the last '.' finds a match whenever one
      exists: no other split point can work. */
  lemma EmailShapeIsPattern(s: string)
    ensures EmailShape(s) <==> MatchesEmailPattern(s)
  {
    if MatchesEmailPattern(s) {
      PatternHasShape(s);
    }
    if EmailShape(s) {
      var i, j := IndexOf(s, '@').value, LastIndexOf(s, '.').value;
      assert s[i] == '@' && s[j] == '.';
    }
  }

  lemma PatternHasShape(s: string)
    requires MatchesEmailPattern(s)
    ensures EmailShape(s)
  {
    var i, j :| 0 < i && i + 1 < j && j + 1 < |s| && s[i] == '@' && s[j] == '.'
      && All(s[..i], IsEmailChar) && All(s[i + 1..j], IsEmailChar) && All(s[j + 1..], IsWordChar);
    var local, top := s[..i], s[j + 1..];
    forall k | 0 <= k < i ensures s[k] != '@' {
      assert s[k] == local[k] && IsEmailChar(local[k]);
    }
    forall k | j < k < |s| ensures s[k] != '.' {
      assert s[k] == top[k - j - 1] && IsWordChar(top[k - j - 1]);
    }
    IndexOfIs(s, '@', i);
    LastIndexOfIs(s, '.', j);
  }

  /** `validate_email`: `re.match` anchors at the start, and Python's `$`
      also matches just before one trailing newline. */
  predicate ValidateEmail(s: string) {
    if |s| > 0 && s[|s| - 1] == '\n' then EmailShape(s) || EmailShape(s[..|s| - 1])
    else EmailShape(s)
  }

  /** `validate_email` accepts exactly the strings the pattern matches, and
      those that match it once one final newline is dropped. */
  lemma ValidateEmailMeaning(s: string)
    ensures ValidateEmail(s) <==>
              (MatchesEmailPattern(s) || (|s| > 0 && s[|s| - 1] == '\n' && MatchesEmailPattern(s[..|s| - 1])))
  {
    EmailShapeIsPattern(s);
    if |s| > 0 && s[|s| - 1] == '\n' {
      EmailShapeIsPattern(s[..|s| - 1]);
    }
  }

  /** A matching address has exactly one '@'. */
  lemma SingleAt(s: string)
    requires EmailShape(s)
    ensures IndexOf(s, '@').Some?
    ensures var i := IndexOf(s, '@').value; '@' !in s[i + 1..]
  {
    var i := IndexOf(s, '@').value;
    var j := LastIndexOf(s, '.').value;
    forall k | i + 1 <= k < |s| ensures s[k] != '@' {
      if k < j {
        assert s[i + 1..j][k - i - 1] == s[k];
      } else if k > j {
        assert s[j + 1..][k - j - 1] == s[k];
      }
    }
  }

  /** A valid address followed by one newline still passes the check, although
      the newline is no part of any address. */
  lemma TrailingNewlineAccepted(s: string)
    requires EmailShape(s)
    ensures ValidateEmail(s + "\n")
    ensures !EmailShape(s + "\n")
  {
    assert (s + "\n")[..|s|] == s;
    var j := LastIndexOf(s, '.').value;
    var t := s + "\n";
    LastIndexOfIs(t, '.', j);
    assert t[j + 1..][|t| - j - 2] == '\n';
  }
}

=== FILE: student_dashboard.dfy ===
/** The attendance part of StudentDashboard.jsx: the flags of the camera
    dialog, the capture-and-submit attempt and how its outcome is shown.
    React state is a record; each handler is a function from the state before
    to the state after.  The webcam, the HTTP exchange and the history refetch
    are inputs. */
module StudentDashboard {
  import opened Wrappers

  /** `message.type`: '' before anything is shown. */
  datatype Kind = Blank | Success | Failure

  datatype Message = Message(text: string, kind: Kind)

  /** The `attendance` object of a marking reply, as far as the page shows it. */
  datatype TodayRecord = TodayRecord(date: string, time: string, confidence: Option<real>)

  datatype State = State(
    showCamera: bool,
    cameraReady: bool,
    isMarking: bool,
    today: Option<TodayRecord>,
    message: Message,
    suggestions: seq<string>)

  /** The body of an error reply. */
  datatype ErrorBody = ErrorBody(message: Option<string>, suggestions: Option<seq<string>>)

  /** How the request of one attempt ended.  `Answered` is a 2xx reply;
      `Thrown` is any exception inside the attempt: axios' code and error
      reply, and the exception's own message. */
  datatype Exchange =
    | Answered(success: bool, message: string, attendance: Option<TodayRecord>, suggestions: Option<seq<string>>)
    | Thrown(code: string, response: Option<ErrorBody>, errMessage: string)

  const NotReady := "Camera is not ready. Please wait."
  const CameraReadyText := "Camera ready! You can now capture your photo."
  const NoScreenshotText := "Failed to capture image from camera"
  const TimedOut := "Request timed out. Please check your connection."
  const DefaultFailure := "Failed to mark attendance. Please try again."

  /** `getScreenshot()` returned nothing: the attempt throws a plain `Error`
      before any request is made. */
  const NoScreenshot: Exchange := Thrown("", None, NoScreenshotText)

  const Cleared := Message("", Blank)

  /** A JavaScript string is truthy: present and not empty. */
  predicate Truthy(s: Option<string>) {
    s.Some? && s.value != ""
  }

  /** `clearMessages`. */
  function ClearMessages(st: State): (r: State)
    ensures r.message == Cleared && r.suggestions == []
    ensures r.(message := st.message, suggestions := st.suggestions) == st
  {
    st.(message := Cleared, suggestions := [])
  }

  /** The "Mark My Attendance" entry is on the page. */
  predicate MarkEntryShown(st: State) {
    st.today.None?
  }

  /** The entry's click handler: it opens the dialog, and can only be
      clicked while the entry is shown. */
  function ClickMarkEntry(st: State): (r: State)
    ensures MarkEntryShown(st) ==> r == st.(showCamera := true)
    ensures !MarkEntryShown(st) ==> r == st
  {
    if MarkEntryShown(st) then st.(showCamera := true) else st
  }

  /** `handleCameraReady`, run by the webcam once it streams. */
  function CameraReady(st: State): (r: State)
    ensures r.cameraReady && r.message == Message(CameraReadyText, Success)
    ensures r.(cameraReady := st.cameraReady, message := st.message) == st
  {
    st.(cameraReady := true, message := Message(CameraReadyText, Success))
  }

  /** The capture button is enabled. */
  predicate CaptureEnabled(st: State) {
    st.cameraReady && !st.isMarking
  }

  /** The first half of `capture`: either it refuses at once, or it marks the
      attempt as running with the messages cleared.  `Some` carries the state
      while the request is in flight. */
  function BeginCapture(st: State, webcamMounted: bool): (r: Option<State>)
    ensures r.None? <==> !st.cameraReady || !webcamMounted
    ensures r.Some? ==> r.value == ClearMessages(st).(isMarking := true)
  {
    if !st.cameraReady || !webcamMounted then None
    else Some(ClearMessages(st).(isMarking := true))
  }

  /** The state a refused attempt leaves: only the message changes. */
  function Refused(st: State): (r: State)
    ensures r == st.(message := Message(NotReady, Failure))
    ensures r.isMarking == st.isMarking && r.suggestions == st.suggestions
  {
    st.(message := Message(NotReady, Failure))
  }

  /** The text the `catch` branch shows, by priority: a time-out, the
      server's message, the exception's message, a default. */
  function ErrorText(code: string, response: Option<ErrorBody>, errMessage: string): (t: string)
    ensures code == "ECONNABORTED" ==> t == TimedOut
    ensures code != "ECONNABORTED" && response.Some? && Truthy(response.value.message)
            ==> t == response.value.message.value
    ensures code != "ECONNABORTED" && !(response.Some? && Truthy(response.value.message)) && errMessage != ""
            ==> t == errMessage
    ensures code != "ECONNABORTED" && !(response.Some? && Truthy(response.value.message)) && errMessage == ""
            ==> t == DefaultFailure
    ensures t != ""
  {
    if code == "ECONNABORTED" then TimedOut
    else if response.Some? && Truthy(response.value.message) then response.value.message.value
    else if errMessage != "" then errMessage
    else DefaultFailure
  }

  /** The second half of `capture`: the outcome is shown and, in `finally`,
      the attempt ends. */
  function FinishCapture(st: State, ex: Exchange): (r: State)
    ensures !r.isMarking
    ensures ex.Answered? && ex.success ==>
              r.today == ex.attendance && !r.showCamera && !r.cameraReady
              && r.message == Message(ex.message, Success) && r.suggestions == st.suggestions
    ensures ex.Answered? && !ex.success ==>
              r.showCamera == st.showCamera && r.cameraReady == st.cameraReady && r.today == st.today
              && r.message == Message(ex.message, Failure)
              && r.suggestions == (if ex.suggestions.Some? then ex.suggestions.value else st.suggestions)
    ensures ex.Thrown? ==>
              r.showCamera == st.showCamera && r.cameraReady == st.cameraReady && r.today == st.today
              && r.message == Message(ErrorText(ex.code, ex.response, ex.errMessage), Failure)
    ensures ex.Thrown? && ex.code != "ECONNABORTED" && ex.response.Some? && Truthy(ex.response.value.message)
            && ex.response.value.suggestions.Some?
            ==> r.suggestions == ex.response.value.suggestions.value
    ensures ex.Thrown? && !(ex.code != "ECONNABORTED" && ex.response.Some? && Truthy(ex.response.value.message)
                            && ex.response.value.suggestions.Some?)
            ==> r.suggestions == st.suggestions
  {
    var shown := match ex
      case Answered(success, message, attendance, suggestions) =>
        if success then
          st.(message := Message(message, Success), today := attendance, showCamera := false, cameraReady := false)
        else
          st.(message := Message(message, Failure), suggestions := suggestions.GetOr(st.suggestions))
      case Thrown(code, response, errMessage) =>
        var fromServer := code != "ECONNABORTED" && response.Some? && Truthy(response.value.message);
        st.(message := Message(ErrorText(code, response, errMessage), Failure),
            suggestions := if fromServer && response.value.suggestions.Some? then response.value.suggestions.value
                           else st.suggestions);
    shown.(isMarking := false)
  }

  /** `capture` as one step, when nothing else happens while the request
      is in flight. */
  function Capture(st: State, webcamMounted: bool, ex: Exchange): (r: State)
    ensures !st.cameraReady || !webcamMounted ==> r == Refused(st)
    ensures st.cameraReady && webcamMounted ==> r == FinishCapture(ClearMessages(st).(isMarking := true), ex)
    ensures st.cameraReady && webcamMounted ==> !r.isMarking
    ensures !st.isMarking ==> !r.isMarking
  {
    match BeginCapture(st, webcamMounted)
    case None => Refused(st)
    case Some(running) => FinishCapture(running, ex)
  }

  /** `handleCameraClose`. */
  function CloseCamera(st: State): (r: State)
    ensures !r.showCamera && !r.cameraReady && r.message == Cleared && r.suggestions == []
    ensures r.isMarking == st.isMarking && r.today == st.today
  {
    ClearMessages(st).(showCamera := false, cameraReady := false)
  }

  /** `getConfidenceColor`: the badge classes of a confidence percentage. */
  datatype Band = Red | Yellow | Green

  function ConfidenceColor(confidence: Option<real>): (b: Band)
    ensures confidence.Some? && confidence.value >= 80.0 ==> b == Green
    ensures confidence.Some? && 60.0 <= confidence.value < 80.0 ==> b == Yellow
    ensures confidence.None? || confidence.value < 60.0 ==> b == Red
  {
    // A missing confidence compares false against both bounds.
    if confidence.Some? && confidence.value >= 80.0 then Green
    else if confidence.Some? && confidence.value >= 60.0 then Yellow
    else Red
  }

  function Rank(b: Band): nat {
    match b
    case Red => 0
    case Yellow => 1
    case Green => 2
  }

  /** A higher confidence never gets a worse band. */
  lemma ConfidenceColorMonotone(a: real, b: real)
    requires a <= b
    ensures Rank(ConfidenceColor(Some(a))) <= Rank(ConfidenceColor(Some(b)))
  {
  }

  /** A refused attempt sends nothing and changes only the message. */
  lemma NotReadyRefuses(st: State, webcamMounted: bool, ex: Exchange)
    requires !st.cameraReady || !webcamMounted
    ensures Capture(st, webcamMounted, ex) == st.(message := Message(NotReady, Failure))
  {
  }

  /** A click on an enabled button always starts an attempt, and while it
      runs the button is disabled: attempts never overlap. */
  lemma EnabledButtonStarts(st: State)
    requires CaptureEnabled(st)
    ensures BeginCapture(st, true).Some?
    ensures !CaptureEnabled(BeginCapture(st, true).value)
  {
  }

  /** An attempt started while idle ends idle, whatever happened to it. */
  lemma AttemptEnds(st: State, webcamMounted: bool, ex: Exchange)
    requires !st.isMarking
    ensures !Capture(st, webcamMounted, ex).isMarking
  {
  }

  /** After a successful attempt the entry disappears, provided the reply
      carried the attendance record. */
  lemma SuccessHidesEntry(st: State, ex: Exchange)
    requires CaptureEnabled(st)
    requires ex.Answered? && ex.success && ex.attendance.Some?
    ensures var r := Capture(st, true, ex);
            !MarkEntryShown(r) && !r.showCamera && r.message.kind == Success
  {
  }

  /** Closing the dialog twice is the same as closing it once. */
  lemma CloseCameraIdempotent(st: State)
    ensures CloseCamera(CloseCamera(st)) == CloseCamera(st)
  {
  }

  /** Closing the dialog does not cancel a request in flight: its result is
      still applied when it arrives, so a success after a close still
      records today's attendance and shows the success message. */
  lemma ResultAfterCloseApplied(st: State, ex: Exchange)
    requires CaptureEnabled(st)
    requires ex.Answered? && ex.success
    ensures var running := BeginCapture(st, true).value;
            var r := FinishCapture(CloseCamera(running), ex);
            r.today == ex.attendance && r.message == Message(ex.message, Success) && !r.isMarking
  {
  }

  /** An empty screenshot ends the attempt with its own message and leaves
      the dialog open. */
  lemma ScreenshotFailureShown(st: State)
    requires CaptureEnabled(st)
    ensures var r := Capture(st, true, NoScreenshot);
            r.message == Message(NoScreenshotText, Failure) && r.showCamera == st.showCamera
            && r.cameraReady && !r.isMarking && r.suggestions == []
  {
  }
}

=== FILE: student_register.dfy ===
/** StudentRegister.jsx: the registration form, its client-side validation
    and its submission.  The form object is a map from input names to
    values, as `handleChange` writes it. */
module StudentRegister {
  import opened Wrappers
  import opened Text
  import ServerHelpers
  import Records

  type FormData = map<string, string>

  /** The form as the page first shows it, and as a successful registration
      leaves it. */
  const EmptyForm: FormData := map["name" := "", "email" := "", "roll_number" := "", "course" := "",
                                   "password" := "", "confirmPassword" := ""]

  const FillAll := "Please fill in all fields."
  const BadEmail := "Please enter a valid email address."
  const Mismatch := "Passwords do not match."
  const TooShort := "Password must be at least 8 characters."
  const Registered := "Registration successful! Redirecting to login..."
  const DefaultError := "Registration failed. Please try again."

  /** A field's value; a missing one reads as `undefined`, falsy like "". */
  function Field(form: FormData, key: string): string {
    if key in form then form[key] else ""
  }

  /** `handleChange`: the input's value replaces its own field. */
  function HandleChange(form: FormData, name: string, value: string): (r: FormData)
    ensures Field(r, name) == value
    ensures forall k :: k != name ==> Field(r, k) == Field(form, k)
    ensures r.Keys == form.Keys + {name}
  {
    form[name := value]
  }

  /** The class `[^\s@]`. */
  predicate Plain(c: char) {
    !JsIsSpace(c) && c != '@'
  }

  /** The regular expression `^[^\s@]+@[^\s@]+\.[^\s@]+$` matches `s`: the
      '@' at `i`, a '.' at `j` inside the domain. */
  ghost predicate MatchesClientPattern(s: string) {
    exists i, j :: 0 < i && i + 1 < j && j + 1 < |s| && s[i] == '@' && s[j] == '.'
      && All(s[..i], Plain) && All(s[i + 1..j], Plain) && All(s[j + 1..], Plain)
  }

  /** Decides the pattern: the first '@' must be the only one, with plain
      text around it and a '.' strictly inside what follows. */
  predicate ClientEmailOk(s: string) {
    match IndexOf(s, '@')
    case None => false
    case Some(i) => 0 < i && i + 3 <= |s| && All(s[..i], Plain) && All(s[i + 1..], Plain)
                    && '.' in s[i + 2..|s| - 1]
  }

  /** The decision procedure and the pattern agree. */
  lemma ClientEmailOkIsPattern(s: string)
    ensures ClientEmailOk(s) <==> MatchesClientPattern(s)
  {
    if MatchesClientPattern(s) {
      PatternDecided(s);
    }
    if ClientEmailOk(s) {
      DecidedPattern(s);
    }
  }

  lemma PatternDecided(s: string)
    requires MatchesClientPattern(s)
    ensures ClientEmailOk(s)
  {
    var i, j :| 0 < i && i + 1 < j && j + 1 < |s| && s[i] == '@' && s[j] == '.'
      && All(s[..i], Plain) && All(s[i + 1..j], Plain) && All(s[j + 1..], Plain);
    NoAtBefore(s, i);
    IndexOfIs(s, '@', i);
    DomainPlain(s, i, j);
    var d := s[i + 2..|s| - 1];
    assert d[j - i - 2] == '.';
  }

  lemma NoAtBefore(s: string, i: nat)
    requires i <= |s| && All(s[..i], Plain)
    ensures forall k :: 0 <= k < i ==> s[k] != '@'
  {
    var local := s[..i];
    forall k | 0 <= k < i ensures s[k] != '@' {
      assert Plain(local[k]);
    }
  }

  /** The two plain pieces around the domain's '.' make a plain domain. */
  lemma DomainPlain(s: string, i: nat, j: nat)
    requires i < j < |s| && s[j] == '.'
    requires All(s[i + 1..j], Plain) && All(s[j + 1..], Plain)
    ensures All(s[i + 1..], Plain)
  {
    var domain, mid, top := s[i + 1..], s[i + 1..j], s[j + 1..];
    forall k | 0 <= k < |domain| ensures Plain(domain[k]) {
      if k < j - i - 1 {
        assert domain[k] == mid[k];
      } else if k > j - i - 1 {
        assert domain[k] == top[k - (j - i)];
      }
    }
  }

  lemma DecidedPattern(s: string)
    requires ClientEmailOk(s)
    ensures MatchesClientPattern(s)
  {
    var i := IndexOf(s, '@').value;
    var d := s[i + 2..|s| - 1];
    var m :| 0 <= m < |d| && d[m] == '.';
    var j := i + 2 + m;
    assert s[j] == '.';
    var domain, mid, top := s[i + 1..], s[i + 1..j], s[j + 1..];
    assert All(mid, Plain) by {
      forall k | 0 <= k < |mid| ensures Plain(mid[k]) {
        assert mid[k] == domain[k];
      }
    }
    assert All(top, Plain) by {
      forall k | 0 <= k < |top| ensures Plain(top[k]) {
        assert top[k] == domain[k + j - i];
      }
    }
  }

  /** None of the six fields is empty. */
  predicate AllFilled(form: FormData) {
    Field(form, "name") != "" && Field(form, "email") != "" && Field(form, "roll_number") != ""
    && Field(form, "course") != "" && Field(form, "password") != "" && Field(form, "confirmPassword") != ""
  }

  /** `validateForm`: the first failing check names the error; `None` when
      every check passes. */
  function ValidateForm(form: FormData): (r: Option<string>)
    ensures !AllFilled(form) ==> r == Some(FillAll)
    ensures AllFilled(form) && !ClientEmailOk(Field(form, "email"))
            ==> r == Some(BadEmail)
    ensures AllFilled(form) && ClientEmailOk(Field(form, "email"))
            && Field(form, "password") != Field(form, "confirmPassword")
            ==> r == Some(Mismatch)
    ensures AllFilled(form) && ClientEmailOk(Field(form, "email"))
            && Field(form, "password") == Field(form, "confirmPassword") && Utf16Length(Field(form, "password")) < 8
            ==> r == Some(TooShort)
    ensures r.None? <==>
              AllFilled(form)
              && ClientEmailOk(Field(form, "email"))
              && Field(form, "password") == Field(form, "confirmPassword")
              && Utf16Length(Field(form, "password")) >= 8
  {
    if !AllFilled(form) then Some(FillAll)
    else if !ClientEmailOk(Field(form, "email")) then Some(BadEmail)
    else if Field(form, "password") != Field(form, "confirmPassword") then Some(Mismatch)
    else if Utf16Length(Field(form, "password")) < 8 then Some(TooShort)
    else None
  }

  /** A short password that also differs from its confirmation is reported
      as a mismatch: that check comes first. */
  lemma MismatchBeforeLength(form: FormData)
    requires AllFilled(form)
    requires ClientEmailOk(Field(form, "email"))
    requires Field(form, "password") != Field(form, "confirmPassword")
    requires Utf16Length(Field(form, "password")) < 8
    ensures ValidateForm(form) == Some(Mismatch)
  {
  }

  /** The page state of the form. */
  datatype State = State(form: FormData, success: string, error: string, isSubmitting: bool)

  /** How the POST ended: a 2xx status, or an exception with the server's
      `message` if there was one. */
  datatype PostReply = Status(code: nat) | Failed(message: Option<string>)

  /** Everything `handleSubmit` does: the state after `finally`, the JSON
      body sent, and whether the login page is scheduled. */
  datatype Submitted = Submitted(state: State, payload: Option<FormData>, redirect: bool)

  /** `handleSubmit`. */
  function HandleSubmit(st: State, reply: PostReply): (s: Submitted)
    ensures ValidateForm(st.form).Some? ==>
              s == Submitted(st.(error := ValidateForm(st.form).value), None, false)
    ensures ValidateForm(st.form).None? ==>
              s.payload == Some(st.form - {"confirmPassword"}) && !s.state.isSubmitting
    ensures ValidateForm(st.form).None? && reply == Status(201) ==>
              s.state == State(EmptyForm, Registered, "", false) && s.redirect
    ensures ValidateForm(st.form).None? && reply.Status? && reply.code != 201 ==>
              s.state == st.(error := "", isSubmitting := false) && !s.redirect
    ensures ValidateForm(st.form).None? && reply.Failed? ==>
              s.state.form == st.form && !s.redirect
              && s.state.error == (if reply.message.Some? && reply.message.value != "" then reply.message.value
                                   else DefaultError)
  {
    var cleared := st.(error := "");
    match ValidateForm(st.form)
    case Some(message) => Submitted(cleared.(error := message), None, false)
    case None =>
      var payload := st.form - {"confirmPassword"};
      match reply
      case Status(code) =>
        if code == 201 then Submitted(State(EmptyForm, Registered, "", false), Some(payload), true)
        else Submitted(cleared.(isSubmitting := false), Some(payload), false)
      case Failed(message) =>
        var text := if message.Some? && message.value != "" then message.value else DefaultError;
        Submitted(cleared.(error := text, isSubmitting := false), Some(payload), false)
  }

  /** A form that passes validation sends every field the server requires,
      and never the confirmation. */
  lemma PayloadHasRequiredFields(form: FormData)
    requires ValidateForm(form).None?
    ensures Records.HasRequiredFields(form - {"confirmPassword"})
    ensures "confirmPassword" !in form - {"confirmPassword"}
  {
  }

  /** Every address the server's check matches, the client's pattern
      matches too. */
  lemma ServerPatternImpliesClient(s: string)
    requires ServerHelpers.MatchesEmailPattern(s)
    ensures MatchesClientPattern(s)
  {
    var i, j :| 0 < i && i + 1 < j && j + 1 < |s| && s[i] == '@' && s[j] == '.'
      && All(s[..i], ServerHelpers.IsEmailChar) && All(s[i + 1..j], ServerHelpers.IsEmailChar)
      && All(s[j + 1..], ServerHelpers.IsWordChar);
    var local, mid, top := s[..i], s[i + 1..j], s[j + 1..];
    assert All(local, Plain) by {
      forall k | 0 <= k < |local| ensures Plain(local[k]) {
        assert ServerHelpers.IsEmailChar(local[k]);
      }
    }
    assert All(mid, Plain) by {
      forall k | 0 <= k < |mid| ensures Plain(mid[k]) {
        assert ServerHelpers.IsEmailChar(mid[k]);
      }
    }
    assert All(top, Plain) by {
      forall k | 0 <= k < |top| ensures Plain(top[k]) {
        assert ServerHelpers.IsWordChar(top[k]);
      }
    }
  }

  /** The two checks differ: "a@b.c-" passes the form and is then refused by
      the server's check. */
  lemma ClientLaxerThanServer()
    ensures ClientEmailOk("a@b.c-")
    ensures !ServerHelpers.ValidateEmail("a@b.c-")
  {
    SampleClientAccepts();
    SampleServerRefuses();
  }

  lemma SampleClientAccepts()
    ensures ClientEmailOk("a@b.c-")
  {
    var s := "a@b.c-";
    IndexOfIs(s, '@', 1);
    var local, domain, inner := s[..1], s[2..], s[3..5];
    assert local == "a" && domain == "b.c-" && inner == ".c";
    assert All(local, Plain) && All(domain, Plain);
    assert inner[0] == '.';
  }

  lemma SampleServerRefuses()
    ensures !ServerHelpers.ValidateEmail("a@b.c-")
  {
    var s := "a@b.c-";
    IndexOfIs(s, '@', 1);
    LastIndexOfIs(s, '.', 3);
    var top := s[4..];
    assert top == "c-" && !ServerHelpers.IsWordChar(top[1]);
  }
}

=== FILE: text.dfy ===
/** String operations shared by the server (Python `str`) and the browser
    client (JavaScript `String`).  Strings are `seq<char>` of Unicode scalar
    values; case folding is modelled on ASCII letters only. */
module Text {
  import opened Wrappers

  /** `c` is an ASCII capital letter. */
  predicate IsAsciiUpper(c: char) {
    'A' <= c <= 'Z'
  }

  /** Lower-case one character (ASCII folding). */
  function LowerChar(c: char): (r: char)
    ensures !IsAsciiUpper(r)
    ensures !IsAsciiUpper(c) ==> r == c
  {
    if IsAsciiUpper(c) then (c as int + 32) as char else c
  }

  /** Python `str.lower()` and JavaScript `toLowerCase()` on ASCII letters. */
  function Lower(s: string): (r: string)
    ensures |r| == |s|
    ensures forall i :: 0 <= i < |s| ==> r[i] == LowerChar(s[i])
  {
    if s == [] then [] else [LowerChar(s[0])] + Lower(s[1..])
  }

  /** Lower-casing a string without capitals changes nothing. */
  lemma LowerKeepsLower(s: string)
    requires forall k :: 0 <= k < |s| ==> !IsAsciiUpper(s[k])
    ensures Lower(s) == s
  {
  }

  /** Characters Python's `str.isspace()` accepts, hence those `str.strip()`
      removes. */
  predicate PyIsSpace(c: char) {
    var n := c as int;
    n == 0x20 || 0x09 <= n <= 0x0D || 0x1C <= n <= 0x1F || n == 0x85 || n == 0xA0
    || n == 0x1680 || 0x2000 <= n <= 0x200A || n == 0x2028 || n == 0x2029
    || n == 0x202F || n == 0x205F || n == 0x3000
  }

  /** Characters the JavaScript regular-expression class `\s` matches. */
  predicate JsIsSpace(c: char) {
    var n := c as int;
    n == 0x20 || 0x09 <= n <= 0x0D || n == 0xA0 || n == 0x1680
    || 0x2000 <= n <= 0x200A || n == 0x2028 || n == 0x2029 || n == 0x202F
    || n == 0x205F || n == 0x3000 || n == 0xFEFF
  }

  /** Drop leading Python whitespace. */
  function LStrip(s: string): (r: string)
    ensures |r| <= |s| && r == s[|s| - |r|..]
    ensures forall k :: 0 <= k < |s| - |r| ==> PyIsSpace(s[k])
    ensures r == [] || !PyIsSpace(r[0])
  {
    if s != [] && PyIsSpace(s[0]) then LStrip(s[1..]) else s
  }

  /** Drop trailing Python whitespace. */
  function RStrip(s: string): (r: string)
    ensures |r| <= |s| && r == s[..|r|]
    ensures forall k :: |r| <= k < |s| ==> PyIsSpace(s[k])
    ensures r == [] || !PyIsSpace(r[|r| - 1])
  {
    if s != [] && PyIsSpace(s[|s| - 1]) then RStrip(s[..|s| - 1]) else s
  }

  /** Python `str.strip()`: the longest infix of `s` that neither starts nor
      ends with whitespace, obtained by removing whitespace only. */
  function Strip(s: string): (r: string)
    ensures r == [] || (!PyIsSpace(r[0]) && !PyIsSpace(r[|r| - 1]))
    ensures |r| <= |s|
    ensures (forall k :: 0 <= k < |s| ==> !PyIsSpace(s[k])) ==> r == s
  {
    RStrip(LStrip(s))
  }

  /** `t` occurs in `s` as a contiguous piece (Python `in`, JavaScript
      `includes`). */
  predicate IsInfix(t: string, s: string) {
    t <= s || (s != [] && IsInfix(t, s[1..]))
  }

  /** Every character of `s` satisfies `p`. */
  predicate All(s: string, p: char -> bool) {
    forall k | 0 <= k < |s| :: p(s[k])
  }

  /** Index of the first occurrence of `c` in `s`. */
  function IndexOf(s: string, c: char): (r: Option<nat>)
    ensures r.None? <==> c !in s
    ensures r.Some? ==> r.value < |s| && s[r.value] == c
    ensures r.Some? ==> forall k :: 0 <= k < r.value ==> s[k] != c
  {
    if s == [] then None
    else if s[0] == c then Some(0)
    else match IndexOf(s[1..], c)
      case None => None
      case Some(i) => Some(i + 1)
  }

  /** Index of the last occurrence of `c` in `s`. */
  function LastIndexOf(s: string, c: char): (r: Option<nat>)
    ensures r.None? <==> c !in s
    ensures r.Some? ==> r.value < |s| && s[r.value] == c
    ensures r.Some? ==> forall k :: r.value < k < |s| ==> s[k] != c
  {
    if s == [] then None
    else if s[|s| - 1] == c then Some(|s| - 1)
    else
      var r := LastIndexOf(s[..|s| - 1], c);
      assert s == s[..|s| - 1] + [s[|s| - 1]];
      r
  }

  /** An occurrence with none before it is the one `IndexOf` finds. */
  lemma {:induction false} IndexOfIs(s: string, c: char, i: nat)
    requires i < |s| && s[i] == c
    requires forall k :: 0 <= k < i ==> s[k] != c
    ensures IndexOf(s, c) == Some(i)
  {
    if i > 0 {
      assert s[0] != c;
      IndexOfIs(s[1..], c, i - 1);
    }
  }

  /** An occurrence with none after it is the one `LastIndexOf` finds. */
  lemma {:induction false} LastIndexOfIs(s: string, c: char, j: nat)
    requires j < |s| && s[j] == c
    requires forall k :: j < k < |s| ==> s[k] != c
    ensures LastIndexOf(s, c) == Some(j)
  {
    if j < |s| - 1 {
      assert s[|s| - 1] != c;
      LastIndexOfIs(s[..|s| - 1], c, j);
    }
  }

  /** JavaScript `String.prototype.split(sep)` for a one-character separator. */
  function Split(s: string, sep: char): (parts: seq<string>)
    ensures |parts| >= 1
    ensures forall k :: 0 <= k < |parts| ==> sep !in parts[k]
    decreases |s|
  {
    match IndexOf(s, sep)
    case None => [s]
    case Some(i) => [s[..i]] + Split(s[i + 1..], sep)
  }

  /** The inverse of `Split`: the pieces glued back with the separator. */
  function Join(parts: seq<string>, sep: char): string
    requires |parts| >= 1
  {
    if |parts| == 1 then parts[0] else parts[0] + [sep] + Join(parts[1..], sep)
  }

  /** Splitting on a separator and joining with it gives back the string. */
  lemma {:induction false} SplitJoin(s: string, sep: char)
    ensures Join(Split(s, sep), sep) == s
    decreases |s|
  {
    match IndexOf(s, sep)
    case None =>
    case Some(i) =>
      var rest := Split(s[i + 1..], sep);
      assert Split(s, sep) == [s[..i]] + rest;
      assert ([s[..i]] + rest)[1..] == rest;
      SplitJoin(s[i + 1..], sep);
      assert Join(Split(s, sep), sep) == s[..i] + [sep] + Join(rest, sep);
      assert s == s[..i] + [sep] + s[i + 1..];
  }

  /** Splitting pieces that hold no separator, glued with it, gives the pieces. */
  lemma {:induction false} JoinSplit(parts: seq<string>, sep: char)
    requires |parts| >= 1
    requires forall k :: 0 <= k < |parts| ==> sep !in parts[k]
    ensures Split(Join(parts, sep), sep) == parts
    decreases |parts|
  {
    if |parts| > 1 {
      var head, tail := parts[0], parts[1..];
      assert sep !in head;
      assert forall k :: 0 <= k < |tail| ==> sep !in tail[k] by {
        forall k | 0 <= k < |tail| ensures sep !in tail[k] {
          assert tail[k] == parts[k + 1];
        }
      }
      var rest := Join(tail, sep);
      SplitFirst(head, rest, sep);
      JoinSplit(tail, sep);
      assert parts == [head] + tail;
    }
  }

  /** Splitting `head + [sep] + rest`, when `head` holds no separator, cuts
      at that separator first. */
  lemma SplitFirst(head: string, rest: string, sep: char)
    requires sep !in head
    ensures Split(head + [sep] + rest, sep) == [head] + Split(rest, sep)
  {
    var s := head + [sep] + rest;
    var i := |head|;
    assert s[..i] == head && s[i] == sep && s[i + 1..] == rest;
    forall k | 0 <= k < i ensures s[k] != sep {
      assert s[k] == head[k];
    }
    IndexOfIs(s, sep, i);
  }

  /** One decimal digit. */
  function Digit(d: nat): char
    requires d < 10
  {
    ['0', '1', '2', '3', '4', '5', '6', '7', '8', '9'][d]
  }

  /** Decimal rendering of a natural number (Python `str` / f-string of an
      `int`). */
  function Decimal(n: nat): (r: string)
    ensures |r| >= 1
    ensures forall k :: 0 <= k < |r| ==> '0' <= r[k] <= '9'
  {
    if n < 10 then [Digit(n)] else Decimal(n / 10) + [Digit(n % 10)]
  }

  /** Decimal rendering left-padded with '0' to at least `width` characters
      (`strftime`'s `%m`, `%d`, `%H`, ...). */
  function ZeroPad(n: nat, width: nat): (r: string)
    ensures |r| >= width
    ensures forall k :: 0 <= k < |r| ==> '0' <= r[k] <= '9'
  {
    var d := Decimal(n);
    if |d| >= width then d else seq(width - |d|, _ => '0') + d
  }

  /** JavaScript `length`: the number of UTF-16 code units, two for a scalar
      value outside the Basic Multilingual Plane. */
  function Utf16Length(s: string): (n: nat)
    ensures |s| <= n <= 2 * |s|
  {
    if s == [] then 0 else (if s[0] as int > 0xFFFF then 2 else 1) + Utf16Length(s[1..])
  }
}

=== FILE: wrappers.dfy ===
/** Option, the one failure-compatible wrapper the model needs: a JSON field,
    a dictionary lookup or a browser reference that may be absent. */
module Wrappers {

  datatype Option<+T> = None | Some(value: T) {

    /** The wrapped value, or `default` when absent. */
    function GetOr(default: T): T {
      match this
      case Some(v) => v
      case None => default
    }
  }
}
